=== FILE: README.md ===
# TensorFusion workload reconciler, modelled in Dafny

This project models the decision logic of the GPU-workload controller of
TensorFusion (`internal/controller/tensorfusionworkload_controller.go`). A
`TensorFusionWorkload` declares how many worker pods it wants and what GPU
resources each needs. One reconcile cycle does the following, in order:

1. it reads the workload and its pods;
2. it runs the workload's finalizer, which deletes the pods when the
   workload is being deleted;
3. it releases the host port and the GPUs of every terminating pod;
4. it records the pool's pod-template hash;
5. it rolls pods with an outdated hash;
6. it scales towards the declared replica count, allocating GPUs and
   launching one worker per missing replica, or deleting the oldest
   surplus pods;
7. it publishes the workload status.

The model is a pure step function. Given the cluster as read (`Types.Cluster`)
and the answers of the collaborators (`Types.Collaborators`), `Reconcile`
returns the list of cluster writes and allocator calls the cycle issues (`Effect`),
in order, and how the cycle ends (`Outcome`: `Done`, `Requeue`,
`RequeueAfter`, an `Error`, or a `Panic`).

- Whether the API server accepts a write is a parameter, `accepts`.
- The GPU allocator, port allocator, worker generator, release token and
  clock are uninterpreted functions and values. Both allocators are indexed
  by the iteration of the scale-up loop, so the GPUs or the host ports can
  run out partway through a scale-up.
- The order `sort.Slice` leaves pods in when creation times tie, the
  answer `HandleFinalizer` gives after adding its finalizer, and the
  resourceVersion the API server gives a pod it updated are also
  collaborators' answers (`arrange`, `stopAfterAdopt`, `podVersion`).

Modules follow the controller:
- `Text` and `Decimal` give Go's `strings.Join`/`strings.Split` and
  `strconv.Atoi`/`%d`.
- `Finalizers` states the contract of `utils.HandleFinalizer`.
- `Launcher` is `tryStartWorker`.
- `Cleanup` is `handlePodGPUCleanup`.
- `Scaling` is `reconcileScaling`, `scaleUpWorkers`, `scaleDownWorkers` and
  `deletePod`.
- `Aggregation` is `updateStatus`.
- `Reconciler` is `Reconcile`.

Design points:
- **`HandleFinalizer` is an assumed contract.** Its source is not part of
  this model.
  - A live object that lacks the finalizer is given it, by an update that
    may be refused. Whether the cycle then stops is the collaborator's
    answer `stopAfterAdopt`. The workload's answer is honoured (line 107);
    a pod's is ignored (line 124).
  - The cleanup hook runs only for a terminating object that carries the
    finalizer. The finalizer is removed, by an update that may be refused,
    only when the hook reports the object removable, and "stop this cycle"
    is then raised.
  - In every other case the helper does nothing.
- **Two nil dereferences and one out-of-range slice become `Panic`
  outcomes instead of being corrected:**
  - line 337 writes into a pod's annotation map, which may be nil;
  - line 501 dereferences `Spec.Replicas` in the pending branch, though
    line 486 allows it to be nil;
  - line 249 slices `podList.Items[:podsToRemove]`. When `Spec.Replicas` is
    negative, `podsToRemove` exceeds the number of pods. Go checks that
    bound against the slice's capacity. The model takes the capacity to be
    the number of pods, as the list call leaves it, so the slice is out of
    range.
- **The Ready condition is stamped with the current time and compared by
  deep equality** (lines 481-484, 509). So whenever the clock has moved, a
  cycle rewrites the status even though nothing else changed
  (`Aggregation.UpdateStatusRewritesOnNewClock`).
- **The port annotation and a failed launch:**
  - `tryStartWorker` writes no port annotation. The port read at line 119
    is whatever the generator put on the pod.
  - A failed launch gives back only its GPUs (line 408), not the host port
    it was assigned.
- **Pods given the finalizer are updated in place.** Line 124 hands the
  helper `&podList.Items[i]`, and the update writes the API server's answer
  back into that pod. So the later stages of the same cycle see the
  finalizer and the new resourceVersion, and the status publishes that
  resourceVersion (line 470). The model passes `AdoptedPods` on to the
  provisioning stage.
- **Pods are sorted in place.** `sort.Slice` at line 243 sorts the listed
  pods themselves, so the status published later in the same cycle is
  computed over the sorted list. The model passes the sorted list on.
  `sort.Slice` is not stable, and pods created in the same second tie. So
  the model takes whatever creation-time ordering the collaborators name
  (`Scaling.CreationOrder`), and proves the scale-down facts for every such
  ordering.
- **The created pod's template-hash label** is the hash returned by
  `GenerateWorkerPod`, because line 281 reassigns `hash`.

## Model

| member | source | states |
|---|---|---|
| Text.Split | internal/controller/tensorfusionworkload_controller.go:357 | splitting on a one-character separator yields one piece more than there are separators, and no piece contains the separator |
| Text.SplitJoin | internal/controller/tensorfusionworkload_controller.go:357 | splitting what was joined gives back a non-empty list of comma-free names |
| Text.JoinSplit | internal/controller/tensorfusionworkload_controller.go:357 | joining the pieces of a split gives back the original string, for every string |
| Decimal.AtoiFormat | internal/controller/tensorfusionworkload_controller.go:119 | reading back the decimal text of any 64-bit integer gives that integer |
| Decimal.AtoiRejectsNonNumbers | internal/controller/tensorfusionworkload_controller.go:119 | an empty port annotation, or one that starts with neither a digit nor a sign, reads as port 0 |
| Decimal.AtoiNumber | internal/controller/tensorfusionworkload_controller.go:119 | an optional sign followed by one or more digits reads as the signed value of the digits, saturated to 64 bits |
| Decimal.AtoiSaturates | internal/controller/tensorfusionworkload_controller.go:119 | digits whose value exceeds 2^64 − 1 read as the largest or smallest 64-bit integer, whatever follows them |
| Decimal.AtoiRejectsTrailing | internal/controller/tensorfusionworkload_controller.go:119 | digits within 2^64 − 1 followed by any other character read as 0 |
| Decimal.AtoiBareSign | internal/controller/tensorfusionworkload_controller.go:119 | a sign followed by no digit reads as 0 |
| Decimal.AtoiOverflowBeforeJunk | internal/controller/tensorfusionworkload_controller.go:119 | example of `AtoiSaturates` on one input: twenty nines followed by a letter read as the largest 64-bit integer, not as 0 |
| Decimal.Atoi | internal/controller/tensorfusionworkload_controller.go:119 | a parsed port is always within the 64-bit range |
| Finalizers.HandleFinalizer | internal/controller/tensorfusionworkload_controller.go:89-109 | assumed contract: a live object lacking the finalizer gets it by an update that may fail; the hook runs only for a terminating object carrying the finalizer; the cycle stops exactly after a successful removal, or after a successful addition when the helper says so; hook failures and panics propagate |
| Finalizers.Without | internal/controller/tensorfusionworkload_controller.go:124-126 | the stripped list has no copy of the finalizer, keeps every other entry, and is the list itself when the finalizer was absent |
| Launcher.TryStartWorker | internal/controller/tensorfusionworkload_controller.go:267-313 | a launch issues at most a port request and then one creation; a launched worker issued exactly those two |
| Launcher.LaunchGuards | internal/controller/tensorfusionworkload_controller.go:274-277 | an empty GPU list or a first GPU without labels fails before any port is requested; otherwise the first GPU's node is asked for a port first |
| Launcher.LaunchedWorker | internal/controller/tensorfusionworkload_controller.go:281-312 | a worker is launched iff port, rendering and creation all succeed; it then carries `workload=<name>`, the generator's template hash, the comma-joined GPU names and the finalizer appended to its own |
| Launcher.ImprintContents | internal/controller/tensorfusionworkload_controller.go:286-304 | the imprint adds exactly two labels, one annotation and one trailing finalizer, keeping every other label, annotation, finalizer and field |
| Launcher.Imprint | internal/controller/tensorfusionworkload_controller.go:286-304 | the launched pod carries the workload and template-hash labels with their values, a `gpus` annotation and the finalizer, and keeps its name, node and creation time |
| Launcher.GpuNames | internal/controller/tensorfusionworkload_controller.go:295-297 | one name per GPU, in allocation order |
| Launcher.GpuKeys | internal/controller/tensorfusionworkload_controller.go:405-407 | one object key per GPU, in allocation order |
| Cleanup.HandlePodGPUCleanup | internal/controller/tensorfusionworkload_controller.go:332-366 | a nil annotation map panics; the marker update comes first and a refused one fails before any release; otherwise the pod is removable, with one release of the comma-split names iff the `gpus` annotation is present, and it is handed back as the marker update stored it, with the resourceVersion the API server gave that update |
| Cleanup.Marked | internal/controller/tensorfusionworkload_controller.go:337 | the marker sets only the `gpu-released` annotation to the token and changes nothing else |
| Cleanup.ReleaseMatchesLaunch | internal/controller/tensorfusionworkload_controller.go:350-362 | when its marker update is accepted, a launched worker releases the names of exactly the GPUs it was launched with, in allocation order |
| Cleanup.LaunchedWorkerCleanupNeverPanics | internal/controller/tensorfusionworkload_controller.go:337 | a worker launched by this controller never reaches the nil-annotation panic |
| Scaling.Outdated | internal/controller/tensorfusionworkload_controller.go:189-196 | the outdated pods are exactly the listed pods whose hash label differs; none exist iff every label matches |
| Scaling.CreationOrder | internal/controller/tensorfusionworkload_controller.go:242-245 | the pods in an order by creation time, a permutation of the list, and the collaborators' order whenever that is one |
| Scaling.OldestFirst | internal/controller/tensorfusionworkload_controller.go:242-249 | for any creation-time ordering of the pods, its first n and the rest partition the pods, and none of the first n is newer than any of the rest |
| Scaling.ScaleDown | internal/controller/tensorfusionworkload_controller.go:316-329 | the deletions issued are a prefix of one deletion per pod in order; the outcome is done or a delete error |
| Scaling.ScaleDownCompletes | internal/controller/tensorfusionworkload_controller.go:316-329 | scaling down succeeds iff every deletion is accepted, and then it deleted every pod in order |
| Scaling.ScaleDownStops | internal/controller/tensorfusionworkload_controller.go:369-379 | a failed scale-down stops at its first refused deletion, all earlier ones having been accepted |
| Scaling.ScaleDownCounts | internal/controller/tensorfusionworkload_controller.go:316-329 | scaling down only deletes pods: no allocation, creation or status write |
| Scaling.AttemptShape | internal/controller/tensorfusionworkload_controller.go:385-411 | each iteration makes one allocation request, deletes nothing, writes no status, and ends with a delayed requeue iff the allocator refused |
| Scaling.AttemptStops | internal/controller/tensorfusionworkload_controller.go:395-410 | an iteration that stops the loop either requeues after a warning with nothing given back, or errors after giving back exactly this iteration's GPUs as its last effect |
| Scaling.AttemptLaunched | internal/controller/tensorfusionworkload_controller.go:401-411 | an iteration that lets the loop continue created one pod and gave nothing back |
| Scaling.Attempt | internal/controller/tensorfusionworkload_controller.go:385-411 | every iteration starts with its allocation request; it requeues after a delay iff the allocator refused, and otherwise ends done or with a scale-up error |
| Scaling.ScaleUp | internal/controller/tensorfusionworkload_controller.go:382-415 | a scale-up of zero workers issues nothing; otherwise its first effect is an allocation request |
| Scaling.ScaleUpCounts | internal/controller/tensorfusionworkload_controller.go:382-415 | scale-up makes at most `count` allocation requests and creates no more pods than it allocated for; it completes only after `count` allocations and creations with nothing given back |
| Scaling.AttemptPortRefused | internal/controller/tensorfusionworkload_controller.go:274-277 | an iteration whose GPUs were granted but whose host port is refused creates nothing, gives those GPUs back once and fails with the port error |
| Scaling.PortExhaustedMidway | internal/controller/tensorfusionworkload_controller.go:385-411 | when the first iteration launches a worker and the port allocator refuses the second, a scale-up by two fails with the port error after exactly one creation and exactly one give-back, so the first worker is kept |
| Scaling.ScaleUpStops | internal/controller/tensorfusionworkload_controller.go:385-414 | a scale-up that stops early ends as its last iteration did, with the same last effect, and gives back only what that iteration gave back, so earlier workers are not rolled back |
| Scaling.SequenceStopsAt | internal/controller/tensorfusionworkload_controller.go:385-412 | a loop that stops early was stopped by the iteration numbered by its allocation count, and ends as that iteration did |
| Scaling.ReconcileScaling | internal/controller/tensorfusionworkload_controller.go:180-255 | the pod list left behind is a permutation of the listed one, and the workload is unchanged or has the pod count as its recorded replicas |
| Scaling.ScaleTowards | internal/controller/tensorfusionworkload_controller.go:208-254 | scaling leaves the workload as it was and the pod list a permutation of the listed one |
| Scaling.ScalingRolls | internal/controller/tensorfusionworkload_controller.go:188-205 | with an outdated pod present, the step issues a prefix of the outdated pods' deletions and nothing else, leaves the workload unchanged, and requeues iff every outdated pod was deleted, failing with a delete error otherwise |
| Scaling.ScalingRecordsReplicas | internal/controller/tensorfusionworkload_controller.go:214-224 | with no outdated pod, the pod count is recorded as `Status.Replicas`; it is written, first and once, iff it changed, and a refused write ends the step |
| Scaling.ScaleTowardsUp | internal/controller/tensorfusionworkload_controller.go:208-238 | below the desired count (`Spec.Replicas`, default 1), at most the missing workers are allocated and created, nothing is deleted, and success means exactly the missing workers were created |
| Scaling.ScaleTowardsDown | internal/controller/tensorfusionworkload_controller.go:239-251 | above the desired count, a prefix of the deletions of the oldest surplus pods is issued, all of them on success, and nothing is allocated or created |
| Scaling.ScaleTowardsNegative | internal/controller/tensorfusionworkload_controller.go:248-249 | a negative `Spec.Replicas` makes the slice bound exceed the pod count: the step panics |
| Scaling.ScaleTowardsSteady | internal/controller/tensorfusionworkload_controller.go:226-254 | at the desired count nothing is issued |
| Scaling.ScaleTowardsWritesNoStatus | internal/controller/tensorfusionworkload_controller.go:226-254 | scaling itself writes no status and leaves the workload unchanged |
| Aggregation.WorkerPhases | internal/controller/tensorfusionworkload_controller.go:437-453 | a worker is running iff its pod runs and is ready, failed iff its pod failed, and pending otherwise |
| Aggregation.SummaryReady | internal/controller/tensorfusionworkload_controller.go:431-453 | the ready count is the number of live pods whose worker is running |
| Aggregation.SummaryFailed | internal/controller/tensorfusionworkload_controller.go:431-453 | the failed count is the number of live pods whose worker failed |
| Aggregation.SummaryReported | internal/controller/tensorfusionworkload_controller.go:455-474 | one worker status is reported per live pod whose worker port is known |
| Aggregation.SummaryStatuses | internal/controller/tensorfusionworkload_controller.go:455-473 | every reported status is that of a live pod, with the generator's port for it |
| Aggregation.SummaryStatusesInOrder | internal/controller/tensorfusionworkload_controller.go:455-473 | the reported statuses are, one for one and in list order, those of the live pods whose worker port is known |
| Aggregation.Positions | internal/controller/tensorfusionworkload_controller.go:455-473 | the positions of the pods that satisfy a test, strictly increasing |
| Aggregation.PositionsComplete | internal/controller/tensorfusionworkload_controller.go:455-473 | every pod that satisfies the test has its position listed, and the positions are exactly the set of such pods |
| Aggregation.Summarize | internal/controller/tensorfusionworkload_controller.go:431-474 | ready plus failed counts and the number of statuses never exceed the number of pods |
| Aggregation.CountsBounded | internal/controller/tensorfusionworkload_controller.go:431-453 | ready plus failed is at most the number of live pods |
| Aggregation.CountsIgnorePorts | internal/controller/tensorfusionworkload_controller.go:455-461 | a pod whose port lookup fails is still counted |
| Aggregation.JudgePhases | internal/controller/tensorfusionworkload_controller.go:476-503 | the phase is running iff the ready count equals a set `Spec.Replicas`, else failed iff a worker failed, else pending; exactly one Ready condition, true iff running; a warning iff failed |
| Aggregation.Judge | internal/controller/tensorfusionworkload_controller.go:476-503 | the decision is missing (a panic) iff `Spec.Replicas` is unset and no worker failed; its Ready condition is stamped with the current time |
| Aggregation.UpdateStatusWrites | internal/controller/tensorfusionworkload_controller.go:505-520 | the status is written, once and last, iff ready count, worker statuses, phase or conditions differ from the stored ones; the replica count and hash are kept; only a refused write fails |
| Aggregation.ComputedStatus | internal/controller/tensorfusionworkload_controller.go:476-516 | the computed status keeps the replica count and hash, carries one Ready condition stamped now, and the count of ready live pods |
| Aggregation.UpdateStatus | internal/controller/tensorfusionworkload_controller.go:418-522 | publishing ends done, with a status-write error, or with the nil-replicas panic, the panic exactly when `Spec.Replicas` is unset and no live pod failed |
| Aggregation.UpdateStatusPanics | internal/controller/tensorfusionworkload_controller.go:497-501 | publishing panics iff `Spec.Replicas` is unset and no live pod failed |
| Aggregation.UpdateStatusIdempotent | internal/controller/tensorfusionworkload_controller.go:505-520 | once the computed status is stored, a second pass at the same time writes nothing |
| Aggregation.UpdateStatusRewritesOnNewClock | internal/controller/tensorfusionworkload_controller.go:481-509 | a stored Ready condition with another timestamp always causes a write |
| Aggregation.UpdateStatusIssuesNoWork | internal/controller/tensorfusionworkload_controller.go:418-522 | publishing issues only the warning and the status write: no allocation, creation or deletion |
| Reconciler.ReconcileGates | internal/controller/tensorfusionworkload_controller.go:72-158 | a missing workload ends the cycle quietly; read and list failures end it with their errors before anything is issued; with the finalizers in place, pool and hash failures end it after only the pods' finalizer updates |
| Reconciler.Reconcile | internal/controller/tensorfusionworkload_controller.go:67-177 | nothing is issued unless the workload and its pods were read, and a missing workload ends the cycle as done |
| Reconciler.WorkloadAdoption | internal/controller/tensorfusionworkload_controller.go:89-109 | a live workload without the finalizer is first given it; a refused update is a finalizer error, and an accepted one ends the cycle or goes on, as the helper answers |
| Reconciler.WorkloadFinalizerHook | internal/controller/tensorfusionworkload_controller.go:89-103 | the workload's hook never panics, fails only on a refused collection delete, and lets the finalizer go iff no pod is listed |
| Reconciler.WorkloadHookDeletesPods | internal/controller/tensorfusionworkload_controller.go:89-103 | the workload's hook issues one collection delete iff some pod is live, fails only if it is refused, and lets the finalizer go iff no pod is listed |
| Reconciler.WorkloadFinalizerStage | internal/controller/tensorfusionworkload_controller.go:89-109 | the workload's finalizer stage never scales or panics, does nothing to a live workload carrying the finalizer, and ends the cycle only after stripping the finalizer with an empty pod list or after adding it |
| Reconciler.DeletedWorkloadReleased | internal/controller/tensorfusionworkload_controller.go:89-109 | a deleted workload with no pods loses its finalizer and the cycle ends; a refused update is a finalizer error |
| Reconciler.CleanupPodsConvergesNothing | internal/controller/tensorfusionworkload_controller.go:113-132 | the pod pass never allocates, asks for a port, creates or deletes a pod, or writes status |
| Reconciler.StripAfterMarker | internal/controller/tensorfusionworkload_controller.go:124-126 | once the release marker is accepted, the finalizer is removed from the marked pod carrying the resourceVersion the marker update got back, and the pod passes iff that removal is accepted |
| Reconciler.CleanupPodsDefers | internal/controller/tensorfusionworkload_controller.go:111-136 | the pod pass carries on only if no pod is terminating |
| Reconciler.CleanupPods | internal/controller/tensorfusionworkload_controller.go:110-136 | the pod pass never asks for an immediate requeue |
| Reconciler.CleanupPodsLive | internal/controller/tensorfusionworkload_controller.go:113-130 | with every pod live, the pod pass only gives the finalizer to the pods lacking it, in order, stops at the first refused update with its error, and carries on iff every such update is accepted |
| Reconciler.RecordedPort | internal/controller/tensorfusionworkload_controller.go:119 | the recorded port is within the 64-bit range, and 0 when the annotation is missing |
| Reconciler.Adoptions | internal/controller/tensorfusionworkload_controller.go:113-130 | at most one finalizer update per pod, none iff every pod carries the finalizer; nothing that scales or publishes status |
| Reconciler.AdoptionsInOrder | internal/controller/tensorfusionworkload_controller.go:113-130 | the finalizer updates are, one for one and in list order, those of the pods lacking the finalizer |
| Reconciler.AdoptedPodsShape | internal/controller/tensorfusionworkload_controller.go:113-130 | after the pod pass every pod carries the finalizer; a pod that had it is untouched; one that lacked it gains exactly the finalizer at the end and the API server's resourceVersion, and keeps its labels, liveness and every other field |
| Reconciler.AdoptedStillCurrent | internal/controller/tensorfusionworkload_controller.go:124 | giving pods the finalizer does not change which pods carry the current template hash |
| Reconciler.TerminatingPodDefersScaling | internal/controller/tensorfusionworkload_controller.go:110-136 | with a terminating pod listed, the cycle issues no allocation, port request, pod creation, pod deletion or status write, and ends with a delayed requeue, an error or a panic, unless it stopped right after giving the workload its finalizer |
| Reconciler.TerminatingWorkloadConvergesNothing | internal/controller/tensorfusionworkload_controller.go:138-141 | a terminating workload is never scaled: no allocation, port request, pod creation, single-pod deletion or status write, and no immediate requeue |
| Reconciler.HashRecorded | internal/controller/tensorfusionworkload_controller.go:160-165 | with the finalizers in place or accepted, a new template hash is recorded in the status right after the pods' finalizer updates; a refused write ends the cycle with an error |
| Reconciler.LiveCycleProvisions | internal/controller/tensorfusionworkload_controller.go:89-158 | with a live workload carrying the finalizer and every pod live, the cycle is the pods' finalizer updates followed by provisioning over the pods as updated, or ends at the first refused update |
| Reconciler.ScalingBounded | internal/controller/tensorfusionworkload_controller.go:180-255 | rolling and scaling create at most the missing workers and never both create and delete pods |
| Reconciler.ReconcileBounded | internal/controller/tensorfusionworkload_controller.go:67-177 | a whole cycle creates at most as many workers as the replicas exceed the listed pods, and never creates and deletes in the same cycle |
| Reconciler.SteadyStateIsQuiet | internal/controller/tensorfusionworkload_controller.go:67-177 | with the finalizers in place or accepted, every pod live and current, the count as declared and recorded, and the status as computed over the pods as updated, the cycle succeeds issuing only the pods' finalizer updates and the worker-failure warning |

## Left out

- Metrics (`RemoveWorkerMetrics`, `SetWorkerMetricsByWorkload`, `SetSchedulerMetrics`) and logging: side channels with no effect on the decisions.
- Event texts: warnings are recorded by reason only (`ScheduleGPUFailed`, `WorkerFailed`); message formatting is not modelled.
- Condition reason and message strings are carried as the source's literals; the pending message's `%d/%d` formatting is reduced to its panic on a nil `Spec.Replicas`.
- `SetControllerReference` (line 306) is assumed to succeed. It fails when the workload's kind is not in the scheme, when the pod's namespace is empty or differs from the workload's, or when the pod already has another controller. The model takes the generated pod to be in the workload's namespace, with no other controller.
- `SetupWithManager` and the workloadprofile controller: framework registration and an explicit no-op.
- Finalizers.HandleFinalizer: whether the helper asks its caller to stop after adding the finalizer is not derived, because the helper's body is not part of this model; it is the parameter `stopAfterAdopt`.
- Decimal.Atoi: the fast path Go takes for inputs shorter than 19 characters is not modelled separately; on such inputs it gives the same value as the general path modelled here.
- Scaling.ScaleTowardsNegative: the model takes `cap(podList.Items) == len(podList.Items)`, as the list call leaves it. Go bounds the slice at line 249 by capacity, so a list with spare capacity would pass elements past its end to `scaleDownWorkers` instead of panicking.
- Scaling.ScaleTowardsUp: the `int32` conversions at lines 215 and 231 are not modelled; a pod list longer than 2^31 − 1 is out of scope.
- Deletion timestamps are booleans (`terminating`): the difference between `!= nil` (lines 92, 433) and `!IsZero()` (lines 115, 138) only matters for a set zero timestamp, which the API server never produces.
- Constant strings (label, annotation and finalizer keys, event reasons) come from a constants package that is not part of this model; the values used are stand-ins with the same roles.
- Concurrency and optimistic locking: an update either succeeds or fails (`accepts`); the cross-instance race the `gpu-released` marker fences against is not modelled.
- Timestamps are integers: creation times order pods, and `metav1.Now()` is one value per cycle; second-precision serialisation is not modelled.
- Reconciler.AdoptedPods: of the API server's answer to a pod's finalizer update, and of its answer to the release-marker update, only the new resourceVersion is modelled (`podVersion`); server-managed fields no later stage reads are not. The workload's own finalizer update is not carried on: no later stage reads its finalizers, and its resourceVersion only matters to optimistic locking, which `accepts` stands for.
- The pod-cleanup hook writes the marker into the listed pod in place; later stages never see that change, because any terminating pod ends the cycle with a delayed requeue first.
- The allocator, port allocator and worker generator (`Alloc`, `Dealloc`, `AssignHostPort`, `ReleaseHostPort`, `PodTemplateHash`, `GenerateWorkerPod`, `WorkerPort`) are uninterpreted; `Dealloc` and `ReleaseHostPort` return nothing the controller checks, so they are effects only.

=== FILE: aggregation.dfy ===
/** Status aggregation (`updateStatus`): the live pods are summarised as
    worker statuses and counts, the counts decide the workload's phase and
    its single Ready condition, and the status is written only when it
    changed. */
module Aggregation {
  import opened Wrappers
  import opened Types
  import opened Decimal

  /** The worker phase reported for a pod. */
  function WorkerPhaseOf(p: Pod): WorkerPhase
  {
    match p.phase
    case PodPending => WorkerPending
    case PodRunning => if p.ready then WorkerRunning else WorkerPending
    case PodFailed => WorkerFailed
    case _ => WorkerPending
  }

  /** A pod's worker is reported running exactly when the pod runs and is
      ready, failed exactly when the pod failed, and pending otherwise. */
  lemma WorkerPhases(p: Pod)
    ensures WorkerPhaseOf(p) == WorkerRunning <==> p.phase == PodRunning && p.ready
    ensures WorkerPhaseOf(p) == WorkerFailed <==> p.phase == PodFailed
    ensures WorkerPhaseOf(p) == WorkerPending <==>
      !(p.phase == PodRunning && p.ready) && p.phase != PodFailed
  {
  }

  predicate IsReady(p: Pod) { Live(p) && WorkerPhaseOf(p) == WorkerRunning }
  predicate IsFailed(p: Pod) { Live(p) && WorkerPhaseOf(p) == WorkerFailed }

  function StatusOf(p: Pod, port: int): WorkerStatus
  {
    WorkerStatus(WorkerPhaseOf(p), p.name, p.ip, port, p.nodeSelector, p.resourceVersion)
  }

  /** What the pass over the pods gathers. */
  datatype Summary = Summary(ready: nat, failed: nat, statuses: seq<WorkerStatus>)

  /** The pass over the pods, in list order: pods being deleted are
      skipped; every other pod is counted as ready or failed by its worker
      phase, and reported as a worker status unless its worker port cannot
      be determined (it is still counted then). */
  function Summarize(pods: seq<Pod>, workerPort: Pod -> Option<int>): (s: Summary)
    ensures s.ready + s.failed <= |pods| && |s.statuses| <= |pods|
  {
    if |pods| == 0 then Summary(0, 0, [])
    else
      var s := Summarize(pods[..|pods| - 1], workerPort);
      var p := pods[|pods| - 1];
      if !Live(p) then s
      else
        var ready := s.ready + (if IsReady(p) then 1 else 0);
        var failed := s.failed + (if IsFailed(p) then 1 else 0);
        match workerPort(p)
        case None => Summary(ready, failed, s.statuses)
        case Some(port) => Summary(ready, failed, s.statuses + [StatusOf(p, port)])
  }

  /** The positions of the pods that satisfy `P`. */
  function Where(pods: seq<Pod>, P: Pod -> bool): set<int>
  {
    set i | 0 <= i < |pods| && P(pods[i])
  }

  /** Whether a pod is reported as a worker status. */
  function Reported(workerPort: Pod -> Option<int>): Pod -> bool
  {
    p => Live(p) && workerPort(p).Some?
  }

  /** Appending a pod adds one position exactly when it satisfies `P`. */
  lemma WhereGrows(pods: seq<Pod>, P: Pod -> bool)
    requires |pods| > 0
    ensures |Where(pods, P)| == |Where(pods[..|pods| - 1], P)| + (if P(pods[|pods| - 1]) then 1 else 0)
  {
    var n := |pods| - 1;
    var front := Where(pods[..n], P);
    assert forall i :: 0 <= i < n ==> pods[i] == pods[..n][i];
    if P(pods[n]) {
      assert Where(pods, P) == front + {n};
    } else {
      assert Where(pods, P) == front;
    }
  }

  /** The ready count is the number of live ready pods. */
  lemma {:induction false} SummaryReady(pods: seq<Pod>, workerPort: Pod -> Option<int>)
    ensures Summarize(pods, workerPort).ready == |Where(pods, IsReady)|
  {
    if |pods| > 0 {
      SummaryReady(pods[..|pods| - 1], workerPort);
      WhereGrows(pods, IsReady);
    }
  }

  /** The failed count is the number of live failed pods. */
  lemma {:induction false} SummaryFailed(pods: seq<Pod>, workerPort: Pod -> Option<int>)
    ensures Summarize(pods, workerPort).failed == |Where(pods, IsFailed)|
  {
    if |pods| > 0 {
      SummaryFailed(pods[..|pods| - 1], workerPort);
      WhereGrows(pods, IsFailed);
    }
  }

  /** One worker status is reported per live pod with a known worker
      port. */
  lemma {:induction false} SummaryReported(pods: seq<Pod>, workerPort: Pod -> Option<int>)
    ensures |Summarize(pods, workerPort).statuses| == |Where(pods, Reported(workerPort))|
  {
    if |pods| > 0 {
      SummaryReported(pods[..|pods| - 1], workerPort);
      WhereGrows(pods, Reported(workerPort));
    }
  }

  /** No pod is both ready and failed, so the two counts together are at
      most the number of live pods. */
  lemma CountsBounded(pods: seq<Pod>, workerPort: Pod -> Option<int>)
    ensures var s := Summarize(pods, workerPort);
      s.ready + s.failed <= |Where(pods, Live)|
  {
    SummaryReady(pods, workerPort);
    SummaryFailed(pods, workerPort);
    var r := Where(pods, IsReady);
    var f := Where(pods, IsFailed);
    assert r !! f;
    assert r + f <= Where(pods, Live);
    assert |r + f| == |r| + |f|;
    SubsetSize(r + f, Where(pods, Live));
  }

  lemma SubsetSize(a: set<int>, b: set<int>)
    requires a <= b
    ensures |a| <= |b|
  {
    assert b == a + (b - a);
  }

  /** The pod at position `i` is reported with status `st`. */
  predicate ReportedAs(pods: seq<Pod>, workerPort: Pod -> Option<int>, i: int, st: WorkerStatus)
  {
    0 <= i < |pods| && Live(pods[i]) && workerPort(pods[i]).Some?
    && st == StatusOf(pods[i], workerPort(pods[i]).value)
  }

  /** Some live pod is reported with status `st`. */
  predicate FromLivePod(pods: seq<Pod>, workerPort: Pod -> Option<int>, st: WorkerStatus)
  {
    exists i :: 0 <= i < |pods| && ReportedAs(pods, workerPort, i, st)
  }

  /** Every reported worker status is that of a live pod, with the port the
      generator reports for it. */
  lemma {:induction false} SummaryStatuses(pods: seq<Pod>, workerPort: Pod -> Option<int>)
    ensures forall j :: 0 <= j < |Summarize(pods, workerPort).statuses| ==> FromLivePod(pods, workerPort, Summarize(pods, workerPort).statuses[j])
  {
    if |pods| > 0 {
      var n := |pods| - 1;
      var front := pods[..n];
      SummaryStatuses(front, workerPort);
      var s := Summarize(pods, workerPort);
      var t := Summarize(front, workerPort);
      forall j | 0 <= j < |s.statuses|
        ensures FromLivePod(pods, workerPort, s.statuses[j])
      {
        if j < |t.statuses| {
          assert s.statuses[j] == t.statuses[j];
          assert FromLivePod(front, workerPort, t.statuses[j]);
          var i :| 0 <= i < |front| && ReportedAs(front, workerPort, i, t.statuses[j]);
          assert pods[i] == front[i];
          assert ReportedAs(pods, workerPort, i, s.statuses[j]);
        } else {
          assert ReportedAs(pods, workerPort, n, s.statuses[j]);
        }
      }
    }
  }

  /** The positions of the pods that satisfy `P`, in increasing order,
      each once. */
  function Positions(pods: seq<Pod>, P: Pod -> bool): (r: seq<int>)
    ensures forall j :: 0 <= j < |r| ==> 0 <= r[j] < |pods| && P(pods[r[j]])
    ensures forall j, j' :: 0 <= j < j' < |r| ==> r[j] < r[j']
  {
    if |pods| == 0 then []
    else
      var n := |pods| - 1;
      var front := Positions(pods[..n], P);
      assert forall j :: 0 <= j < |front| ==> pods[front[j]] == pods[..n][front[j]];
      front + (if P(pods[n]) then [n] else [])
  }

  /** Every position of a pod satisfying `P` is listed, so the listed
      positions are exactly `Where(pods, P)`. */
  lemma {:induction false} PositionsComplete(pods: seq<Pod>, P: Pod -> bool)
    ensures forall i :: 0 <= i < |pods| && P(pods[i]) ==> i in Positions(pods, P)
    ensures forall i :: i in Positions(pods, P) <==> i in Where(pods, P)
  {
    if |pods| > 0 {
      var n := |pods| - 1;
      PositionsComplete(pods[..n], P);
      assert forall i :: 0 <= i < n ==> pods[i] == pods[..n][i];
    }
  }

  /** The worker statuses are those of the reported pods, each reported
      pod exactly once, in list order: the j-th status is that of the pod
      at the j-th reported position. */
  lemma {:induction false} SummaryStatusesInOrder(pods: seq<Pod>, workerPort: Pod -> Option<int>)
    ensures |Summarize(pods, workerPort).statuses| == |Positions(pods, Reported(workerPort))|
    ensures forall j :: 0 <= j < |Summarize(pods, workerPort).statuses| ==>
      ReportedAs(pods, workerPort, Positions(pods, Reported(workerPort))[j], Summarize(pods, workerPort).statuses[j])
  {
    if |pods| > 0 {
      var n := |pods| - 1;
      var front := pods[..n];
      SummaryStatusesInOrder(front, workerPort);
      var s := Summarize(pods, workerPort).statuses;
      var t := Summarize(front, workerPort).statuses;
      var ps := Positions(pods, Reported(workerPort));
      var pt := Positions(front, Reported(workerPort));
      forall j | 0 <= j < |s|
        ensures ReportedAs(pods, workerPort, ps[j], s[j])
      {
        if j < |t| {
          assert ps[j] == pt[j] && s[j] == t[j];
          assert pods[pt[j]] == front[pt[j]];
        }
      }
    }
  }

  /** The worker port is used only for the reported statuses: the counts do
      not depend on it. */
  lemma CountsIgnorePorts(pods: seq<Pod>, f: Pod -> Option<int>, g: Pod -> Option<int>)
    ensures Summarize(pods, f).ready == Summarize(pods, g).ready
    ensures Summarize(pods, f).failed == Summarize(pods, g).failed
  {
    SummaryReady(pods, f);
    SummaryReady(pods, g);
    SummaryFailed(pods, f);
    SummaryFailed(pods, g);
  }

  /** The phase and Ready condition chosen from the counts, and whether a
      `WorkerFailed` warning is recorded. */
  datatype Verdict = Verdict(phase: WorkloadPhase, condition: Condition, warn: bool)

  /** The decision of `updateStatus`: running when the ready count equals
      a set `Spec.Replicas`; else failed when any worker failed; else
      pending, whose message dereferences `Spec.Replicas` (`None`: that
      dereference panics). */
  function Judge(replicas: Option<int>, ready: int, failed: int, now: int): (v: Option<Verdict>)
    ensures v.None? <==> replicas.None? && failed <= 0
    ensures v.Some? ==> v.value.condition.kind == ReadyConditionType && v.value.condition.lastTransition == now
  {
    if replicas.Some? && ready == replicas.value then
      Some(Verdict(PhaseRunning,
                   Condition(ReadyConditionType, ConditionTrue, "WorkloadReady", "All workers are running", now),
                   false))
    else if failed > 0 then
      Some(Verdict(PhaseFailed,
                   Condition(ReadyConditionType, ConditionFalse, "WorkerFailed",
                             "Failed workers: " + Format(failed), now),
                   true))
    else if replicas.None? then None
    else
      Some(Verdict(PhasePending,
                   Condition(ReadyConditionType, ConditionFalse, "WaitingForWorkers",
                             "Ready replicas: " + Format(ready) + "/" + Format(replicas.value), now),
                   false))
  }

  /** The phase is running exactly when the ready count equals a set
      `Spec.Replicas`, failed exactly when it does not and a worker failed,
      and pending otherwise; the decision is missing (a panic) exactly when
      `Spec.Replicas` is unset and no worker failed. The Ready condition is
      True exactly in the running phase, is stamped with the current time,
      and a warning is recorded exactly in the failed phase. */
  lemma JudgePhases(replicas: Option<int>, ready: int, failed: int, now: int)
    ensures var v := Judge(replicas, ready, failed, now);
      && (v.None? <==> replicas.None? && failed <= 0)
      && (v.Some? ==>
            && (v.value.phase == PhaseRunning <==> replicas.Some? && ready == replicas.value)
            && (v.value.phase == PhaseFailed <==> !(replicas.Some? && ready == replicas.value) && failed > 0)
            && (v.value.phase == PhaseRunning || v.value.phase == PhaseFailed || v.value.phase == PhasePending)
            && v.value.condition.kind == ReadyConditionType
            && v.value.condition.lastTransition == now
            && (v.value.condition.status == ConditionTrue <==> v.value.phase == PhaseRunning)
            && (v.value.warn <==> v.value.phase == PhaseFailed))
  {
  }

  /** `updateStatus`: summarise the pods, decide the phase, record the
      warning if any, and write the status when any of the ready count, the
      worker statuses, the phase or the conditions changed. */
  function UpdateStatus(w: Workload, pods: seq<Pod>, k: Collaborators, accepts: Effect -> bool): (r: Step)
    ensures r.outcome in {Done, Error(StatusUpdateFailed), Panic(NilReplicas)}
    ensures r.outcome == Panic(NilReplicas) <==> w.spec.replicas.None? && Summarize(pods, k.workerPort).failed == 0
  {
    var s := Summarize(pods, k.workerPort);
    match Judge(w.spec.replicas, s.ready, s.failed, k.now)
    case None => Step([], Panic(NilReplicas))
    case Some(v) =>
      var warn := if v.warn then [Warning(WorkerFailedEvent)] else [];
      var next := Refreshed(w.status, s, v);
      if next == w.status then Step(warn, Done)
      else
        var write := WriteStatus(next);
        Step(warn + [write], if accepts(write) then Done else Error(StatusUpdateFailed))
  }

  /** The status with the fields `updateStatus` maintains replaced. */
  function Refreshed(st: WorkloadStatus, s: Summary, v: Verdict): WorkloadStatus
  {
    st.(phase := v.phase, conditions := [v.condition], readyReplicas := s.ready,
        workerStatuses := s.statuses)
  }

  /** The status the cycle computes from `w` and the pods. */
  function Computed(w: Workload, pods: seq<Pod>, k: Collaborators): Option<WorkloadStatus>
  {
    var s := Summarize(pods, k.workerPort);
    match Judge(w.spec.replicas, s.ready, s.failed, k.now)
    case None => None
    case Some(v) => Some(Refreshed(w.status, s, v))
  }

  /** The computed status keeps the replica count and template hash, and
      carries exactly one condition (Ready, stamped with the current time)
      and the counted ready workers. */
  lemma ComputedStatus(w: Workload, pods: seq<Pod>, k: Collaborators)
    requires Computed(w, pods, k).Some?
    ensures var next := Computed(w, pods, k).value;
      && next.replicas == w.status.replicas && next.podTemplateHash == w.status.podTemplateHash
      && |next.conditions| == 1 && next.conditions[0].kind == ReadyConditionType
      && next.conditions[0].lastTransition == k.now
      && next.readyReplicas == |Where(pods, IsReady)|
  {
    SummaryReady(pods, k.workerPort);
  }

  /** The status is written, as the last effect and only write, exactly
      when one of the maintained fields differs from what was computed, and
      only a refused write makes the step fail. */
  lemma UpdateStatusWrites(w: Workload, pods: seq<Pod>, k: Collaborators, accepts: Effect -> bool)
    requires Computed(w, pods, k).Some?
    ensures var r := UpdateStatus(w, pods, k, accepts);
      var next := Computed(w, pods, k).value;
      var s := Summarize(pods, k.workerPort);
      var changed := w.status.readyReplicas != s.ready || w.status.workerStatuses != s.statuses
        || w.status.phase != next.phase || w.status.conditions != next.conditions;
      && (changed <==> Count(r.effects, KWriteStatus) == 1)
      && (!changed <==> Count(r.effects, KWriteStatus) == 0)
      && (changed ==> r.effects[|r.effects| - 1] == WriteStatus(next))
      && (r.outcome == Done || r.outcome == Error(StatusUpdateFailed))
      && (r.outcome == Error(StatusUpdateFailed) <==> changed && !accepts(WriteStatus(next)))
  {
    var s := Summarize(pods, k.workerPort);
    var v := Judge(w.spec.replicas, s.ready, s.failed, k.now).value;
    var next := Refreshed(w.status, s, v);
    assert Computed(w, pods, k).value == next;
    var warn: seq<Effect> := if v.warn then [Warning(WorkerFailedEvent)] else [];
    CountZero(warn, KWriteStatus);
    if next == w.status {
      assert UpdateStatus(w, pods, k, accepts) == Step(warn, Done);
    } else {
      assert UpdateStatus(w, pods, k, accepts).effects == warn + [WriteStatus(next)];
      CountAppend(warn, [WriteStatus(next)], KWriteStatus);
      assert [WriteStatus(next)][1..] == [];
    }
  }

  /** A panic happens exactly when `Spec.Replicas` is unset and no live pod
      failed. */
  lemma UpdateStatusPanics(w: Workload, pods: seq<Pod>, k: Collaborators, accepts: Effect -> bool)
    ensures UpdateStatus(w, pods, k, accepts).outcome == Panic(NilReplicas)
        <==> w.spec.replicas.None? && |Where(pods, IsFailed)| == 0
  {
    SummaryFailed(pods, k.workerPort);
  }

  /** Once the computed status is stored, a second pass over the same pods
      at the same time writes nothing. */
  lemma UpdateStatusIdempotent(w: Workload, pods: seq<Pod>, k: Collaborators, accepts: Effect -> bool)
    requires Computed(w, pods, k).Some?
    ensures var w2 := w.(status := Computed(w, pods, k).value);
      && Computed(w2, pods, k) == Computed(w, pods, k)
      && Count(UpdateStatus(w2, pods, k, accepts).effects, KWriteStatus) == 0
      && UpdateStatus(w2, pods, k, accepts).outcome == Done
  {
    var w2 := w.(status := Computed(w, pods, k).value);
    UpdateStatusWrites(w2, pods, k, accepts);
  }

  /** The Ready condition is stamped with the current time and compared
      with the stored one, so a stored condition with another timestamp
      always causes a write. */
  lemma UpdateStatusRewritesOnNewClock(w: Workload, pods: seq<Pod>, k: Collaborators, accepts: Effect -> bool)
    requires Computed(w, pods, k).Some?
    requires |w.status.conditions| == 1 && w.status.conditions[0].lastTransition != k.now
    ensures Count(UpdateStatus(w, pods, k, accepts).effects, KWriteStatus) == 1
  {
    ComputedStatus(w, pods, k);
    UpdateStatusWrites(w, pods, k, accepts);
  }

  /** Publishing status neither allocates nor creates nor deletes pods:
      its only effects are the warning and the status write. */
  lemma UpdateStatusIssuesNoWork(w: Workload, pods: seq<Pod>, k: Collaborators, accepts: Effect -> bool)
    ensures forall i :: 0 <= i < |UpdateStatus(w, pods, k, accepts).effects| ==>
      UpdateStatus(w, pods, k, accepts).effects[i].Warning? || UpdateStatus(w, pods, k, accepts).effects[i].WriteStatus?
    ensures Count(UpdateStatus(w, pods, k, accepts).effects, KCreate) == 0
    ensures Count(UpdateStatus(w, pods, k, accepts).effects, KDelete) == 0
    ensures Count(UpdateStatus(w, pods, k, accepts).effects, KAlloc) == 0
  {
    var e := UpdateStatus(w, pods, k, accepts).effects;
    assert WarnsOrWrites(e);
    WarnsOrWritesDoNoWork(e);
  }

  /** Effects that only record warnings or write status. */
  predicate WarnsOrWrites(es: seq<Effect>)
  {
    forall i :: 0 <= i < |es| ==> es[i].Warning? || es[i].WriteStatus?
  }

  lemma WarnsOrWritesDoNoWork(es: seq<Effect>)
    requires WarnsOrWrites(es)
    ensures Count(es, KCreate) == 0 && Count(es, KDelete) == 0 && Count(es, KAlloc) == 0
  {
    CountZero(es, KCreate);
    CountZero(es, KDelete);
    CountZero(es, KAlloc);
  }
}

=== FILE: cleanup.dfy ===
/** Releasing a terminating worker's GPUs (`handlePodGPUCleanup`). The
    cycle first stamps the pod with a fresh `gpu-released` token and
    updates it; the API server accepts that update for at most one cycle per
    pod version, so only the cycle that wins it goes on to `Dealloc`. */
module Cleanup {
  import opened Wrappers
  import opened Types
  import opened Text
  import opened Finalizers
  import opened Launcher

  /** The pod with the release token written into its annotations. */
  function Marked(pod: Pod, token: string): (p: Pod)
    requires pod.annotations.Some?
    ensures p.annotations.Some?
    ensures p.annotations.value.Keys == pod.annotations.value.Keys + {GpuReleasedAnnotation}
    ensures Annotation(p, GpuReleasedAnnotation) == Some(token)
    ensures forall key :: key != GpuReleasedAnnotation ==> Annotation(p, key) == Annotation(pod, key)
    ensures p == pod.(annotations := p.annotations)
  {
    pod.(annotations := Some(pod.annotations.value[GpuReleasedAnnotation := token]))
  }

  /** GPU names as the allocator's keys; GPUs are cluster-scoped, so the
      namespace is empty. */
  function NameKeys(names: seq<string>): (keys: seq<NameNs>)
    ensures |keys| == |names|
    ensures forall i :: 0 <= i < |names| ==> keys[i] == NameNs("", names[i])
  {
    if |names| == 0 then [] else [NameNs("", names[0])] + NameKeys(names[1..])
  }

  /** `handlePodGPUCleanup(pod, workload)`, with `token` the fresh value
      for the `gpu-released` annotation and `version` the resourceVersion
      the API server gives the pod an accepted update sent: the marker
      update writes the server's answer back into the pod, which is the
      one the finalizer is then stripped from. */
  function HandlePodGPUCleanup(pod: Pod, w: Workload, token: string, version: Pod -> string,
                               accepts: Effect -> bool): (r: Hook<Pod>)
    // a nil annotation map is written to before anything else happens
    ensures r.HookPanicked? <==> pod.annotations.None?
    ensures r.HookPanicked? ==> r == HookPanicked([], NilAnnotations)
    // otherwise the marker update is always the first effect
    ensures pod.annotations.Some? ==>
      |r.effects| >= 1 && r.effects[0] == UpdatePod(Marked(pod, token))
    // a refused marker update stops the cleanup before the allocator is touched
    ensures r.HookFailed? <==> pod.annotations.Some? && !accepts(UpdatePod(Marked(pod, token)))
    ensures r.HookFailed? ==> r.failure == MarkerUpdateFailed && Count(r.effects, KDealloc) == 0
    // otherwise the finalizer may go, and the allocator is called once, only
    // when the pod names its GPUs
    ensures r.HookDone? ==>
      r.removable && r.obj == Marked(pod, token).(resourceVersion := version(Marked(pod, token)))
    ensures r.HookDone? ==>
      match Annotation(pod, GpusAnnotation)
      case None => r.effects == [UpdatePod(Marked(pod, token))]
      case Some(names) =>
        r.effects == [UpdatePod(Marked(pod, token)),
                      Dealloc(OwnerOf(w), w.spec.resources.requests, NameKeys(Split(names, ',')))]
  {
    if pod.annotations.None? then HookPanicked([], NilAnnotations)
    else
      var marked := Marked(pod, token);
      if !accepts(UpdatePod(marked)) then HookFailed([UpdatePod(marked)], MarkerUpdateFailed)
      else
        var stored := marked.(resourceVersion := version(marked));
        match Annotation(marked, GpusAnnotation)
        case None => HookDone([UpdatePod(marked)], true, stored)
        case Some(names) =>
          var release := Dealloc(OwnerOf(w), w.spec.resources.requests, NameKeys(Split(names, ',')));
          HookDone([UpdatePod(marked), release], true, stored)
  }

  /** A worker this controller launched releases exactly the GPUs it was
      launched with, in allocation order: the `gpus` annotation joined at
      launch splits back into the same names (GPU names contain no comma). */
  lemma ReleaseMatchesLaunch(
    gpus: seq<Gpu>, w: Workload, hash: string, attempt: nat, k: Collaborators,
    accepts: Effect -> bool, token: string)
    requires TryStartWorker(gpus, w, hash, attempt, k, accepts).Launched?
    requires SeparatorFree(GpuNames(gpus), ',')
    requires accepts(UpdatePod(Marked(TryStartWorker(gpus, w, hash, attempt, k, accepts).pod, token)))
    ensures var pod := TryStartWorker(gpus, w, hash, attempt, k, accepts).pod;
      HandlePodGPUCleanup(pod, w, token, k.podVersion, accepts).HookDone?
      && HandlePodGPUCleanup(pod, w, token, k.podVersion, accepts).effects[1]
         == Dealloc(OwnerOf(w), w.spec.resources.requests, NameKeys(GpuNames(gpus)))
  {
    SplitJoin(GpuNames(gpus), ',');
  }

  /** A launched worker never hits the nil-annotation hazard. */
  lemma LaunchedWorkerCleanupNeverPanics(
    gpus: seq<Gpu>, w: Workload, hash: string, attempt: nat, k: Collaborators,
    accepts: Effect -> bool, token: string)
    requires TryStartWorker(gpus, w, hash, attempt, k, accepts).Launched?
    ensures !HandlePodGPUCleanup(TryStartWorker(gpus, w, hash, attempt, k, accepts).pod, w, token, k.podVersion, accepts).HookPanicked?
  {
  }
}

=== FILE: decimal.dfy ===
/** Decimal text for integers: Go's `%d` formatting (used in the Ready
    condition's messages) and `strconv.Atoi` with its error discarded (used
    to read a pod's `port` annotation before releasing the port). */
module Decimal {

  const MinInt64: int := -0x8000_0000_0000_0000
  const MaxInt64: int := 0x7fff_ffff_ffff_ffff
  const MaxUint64: int := 0xffff_ffff_ffff_ffff

  predicate IsDigit(c: char)
  {
    '0' <= c <= '9'
  }

  predicate AllDigits(s: string)
  {
    forall i :: 0 <= i < |s| ==> IsDigit(s[i])
  }

  function DigitChar(d: nat): (c: char)
    requires d < 10
    ensures IsDigit(c) && c as int - '0' as int == d
  {
    ('0' as int + d) as char
  }

  /** The value of a string of decimal digits, most significant first. */
  function Value(s: string): nat
    requires AllDigits(s)
  {
    if |s| == 0 then 0
    else Value(s[..|s| - 1]) * 10 + (s[|s| - 1] as int - '0' as int)
  }

  /** The shortest decimal digits of `n`. */
  function Digits(n: nat): (s: string)
    ensures |s| >= 1 && AllDigits(s)
  {
    if n < 10 then [DigitChar(n)]
    else Digits(n / 10) + [DigitChar(n % 10)]
  }

  /** `fmt.Sprintf("%d", n)`. */
  function Format(n: int): string
  {
    if n < 0 then "-" + Digits(-n) else Digits(n)
  }

  /** Go's `int` on a 64-bit platform saturates a parse that overflows. */
  function Clamp(n: int): (r: int)
    ensures MinInt64 <= r <= MaxInt64
    ensures MinInt64 <= n <= MaxInt64 ==> r == n
  {
    if n < MinInt64 then MinInt64 else if n > MaxInt64 then MaxInt64 else n
  }

  /** The longest prefix of `s` made of digits. */
  function LeadingDigits(s: string): (d: string)
    ensures AllDigits(d) && |d| <= |s| && d == s[..|d|]
    ensures |d| == |s| || !IsDigit(s[|d|])
  {
    if |s| == 0 || !IsDigit(s[0]) then "" else [s[0]] + LeadingDigits(s[1..])
  }

  /** `n, _ := strconv.Atoi(s)`. After an optional sign the parser reads
      the digits one at a time: once the digits read so far exceed
      2^64 - 1 it stops with the saturated value, whatever follows;
      otherwise a missing digit or any other character is a syntax error,
      read as 0, and a complete number is saturated to 64 bits. */
  function Atoi(s: string): (n: int)
    ensures MinInt64 <= n <= MaxInt64
  {
    if |s| == 0 then 0
    else
      var body := if s[0] == '-' || s[0] == '+' then s[1..] else s;
      var run := LeadingDigits(body);
      if Value(run) > MaxUint64 || (|run| >= 1 && run == body) then
        Clamp(Signed(s[0] == '-', Value(run)))
      else 0
  }

  /** A magnitude with its sign applied. */
  function Signed(negative: bool, v: nat): int
  {
    if negative then -(v as int) else v
  }

  /** The signs `strconv.Atoi` accepts in front of the digits. */
  predicate IsSign(sign: string)
  {
    sign == "" || sign == "+" || sign == "-"
  }

  lemma {:induction false} LeadingDigitsStop(d: string, rest: string)
    requires AllDigits(d)
    requires |rest| == 0 || !IsDigit(rest[0])
    ensures LeadingDigits(d + rest) == d
    decreases |d|
  {
    if |d| > 0 {
      assert (d + rest)[1..] == d[1..] + rest;
      LeadingDigitsStop(d[1..], rest);
      assert [d[0]] + d[1..] == d;
    } else {
      assert d + rest == rest;
    }
  }

  /** The body of a signed text: what follows its sign. */
  lemma SignedBody(sign: string, t: string)
    requires IsSign(sign)
    requires sign == "" ==> |t| >= 1 && IsDigit(t[0])
    ensures |sign + t| >= 1
    ensures (if (sign + t)[0] == '-' || (sign + t)[0] == '+' then (sign + t)[1..] else sign + t) == t
    ensures (sign + t)[0] == '-' <==> sign == "-"
  {
    if sign != "" {
      assert (sign + t)[1..] == t;
    } else {
      assert sign + t == t;
    }
  }

  /** A sign and a run of digits read as their value, saturated to 64
      bits. */
  lemma AtoiNumber(sign: string, digits: string)
    requires IsSign(sign) && |digits| >= 1 && AllDigits(digits)
    ensures Atoi(sign + digits) == Clamp(Signed(sign == "-", Value(digits)))
  {
    SignedBody(sign, digits);
    LeadingDigitsStop(digits, "");
    assert digits + "" == digits;
  }

  /** Digits whose value exceeds 2^64 - 1 saturate the result, whatever
      follows them. */
  lemma AtoiSaturates(sign: string, digits: string, rest: string)
    requires IsSign(sign) && AllDigits(digits) && Value(digits) > MaxUint64
    requires |rest| == 0 || !IsDigit(rest[0])
    ensures Atoi(sign + digits + rest) == if sign == "-" then MinInt64 else MaxInt64
  {
    assert |digits| >= 1;
    assert sign + digits + rest == sign + (digits + rest);
    SignedBody(sign, digits + rest);
    LeadingDigitsStop(digits, rest);
  }

  /** Digits within 2^64 - 1 followed by anything else are a syntax
      error, read as 0. */
  lemma AtoiRejectsTrailing(sign: string, digits: string, rest: string)
    requires IsSign(sign) && |digits| >= 1 && AllDigits(digits) && Value(digits) <= MaxUint64
    requires |rest| >= 1 && !IsDigit(rest[0])
    ensures Atoi(sign + digits + rest) == 0
  {
    assert sign + digits + rest == sign + (digits + rest);
    SignedBody(sign, digits + rest);
    LeadingDigitsStop(digits, rest);
    assert (digits + rest)[|digits|] == rest[0];
  }

  /** A sign not followed by a digit is a syntax error, read as 0. */
  lemma AtoiBareSign(sign: string, rest: string)
    requires sign == "+" || sign == "-"
    requires |rest| == 0 || !IsDigit(rest[0])
    ensures Atoi(sign + rest) == 0
  {
    assert (sign + rest)[1..] == rest;
  }

  function Pow10(n: nat): nat
  {
    if n == 0 then 1 else 10 * Pow10(n - 1)
  }

  /** `n` nines. */
  function Nines(n: nat): (s: string)
    ensures |s| == n && AllDigits(s)
  {
    if n == 0 then "" else Nines(n - 1) + "9"
  }

  lemma {:induction false} ValueOfNines(n: nat)
    ensures Value(Nines(n)) == Pow10(n) - 1
  {
    if n > 0 {
      assert Nines(n)[..n - 1] == Nines(n - 1);
      ValueOfNines(n - 1);
    }
  }

  lemma {:induction false} Pow10Add(a: nat, b: nat)
    ensures Pow10(a + b) == Pow10(a) * Pow10(b)
    decreases a
  {
    if a > 0 {
      Pow10Add(a - 1, b);
    }
  }

  /** Twenty nines overflow 64 bits before the parser reaches the `x`
      that follows them. */
  lemma AtoiOverflowBeforeJunk()
    ensures Atoi(Nines(20) + "x") == MaxInt64
  {
    ValueOfNines(20);
    Pow10Add(10, 10);
    Pow10Add(5, 5);
    assert Pow10(5) == 100000;
    AtoiSaturates("", Nines(20), "x");
    assert "" + Nines(20) + "x" == Nines(20) + "x";
  }

  lemma {:induction false} ValueOfDigits(n: nat)
    ensures Value(Digits(n)) == n
    decreases n
  {
    if n >= 10 {
      var s := Digits(n);
      ValueOfDigits(n / 10);
      assert s[..|s| - 1] == Digits(n / 10);
    }
  }

  /** Atoi reads back what `%d` writes, for every 64-bit integer. */
  lemma AtoiFormat(n: int)
    requires MinInt64 <= n <= MaxInt64
    ensures Atoi(Format(n)) == n
  {
    var d := Digits(if n < 0 then -n else n);
    ValueOfDigits(if n < 0 then -n else n);
    var sign := if n < 0 then "-" else "";
    AtoiNumber(sign, d);
    assert Format(n) == sign + d;
    assert Signed(n < 0, Value(d)) == n;
  }

  /** Text that does not start like a number reads as port 0. */
  lemma AtoiRejectsNonNumbers(s: string)
    requires |s| == 0 || (!IsDigit(s[0]) && s[0] != '-' && s[0] != '+')
    ensures Atoi(s) == 0
  {
  }
}

=== FILE: finalizers.dfy ===
/** Finalizer bookkeeping. `HandleFinalizer` is the helper the reconciler
    calls for the workload and for every pod; its body is not part of this
    model, so this module states the contract the reconciler relies on. A
    live object that lacks the finalizer gets it, by an update that may be
    refused; whether the helper then asks its caller to stop is not known
    and is a parameter. For a terminating object that carries the
    finalizer, the cleanup hook runs, and the finalizer is removed (by an
    update that may be refused) only when the hook reports the object
    removable; the "stop this cycle" flag is raised when it was removed. In
    every other case the helper does nothing. */
module Finalizers {
  import opened Types

  /** `controllerutil.RemoveFinalizer`: every copy of `f` removed, the rest
      kept in order. */
  function Without(fs: seq<string>, f: string): (r: seq<string>)
    ensures f !in r
    ensures forall g :: g in fs && g != f ==> g in r
    ensures forall g :: g in r ==> g in fs
    ensures |r| <= |fs|
    ensures f !in fs ==> r == fs
  {
    if |fs| == 0 then []
    else (if fs[0] == f then [] else [fs[0]]) + Without(fs[1..], f)
  }

  /** What a cleanup hook reported: it failed, it hit a nil dereference, or
      it finished (with the object as it now stands) and says whether the
      finalizer may go. */
  datatype Hook<T> =
    | HookFailed(effects: seq<Effect>, failure: Failure)
    | HookPanicked(effects: seq<Effect>, hazard: Hazard)
    | HookDone(effects: seq<Effect>, removable: bool, obj: T)

  datatype FinalizerOutcome =
    | FinalizerFailed(effects: seq<Effect>, failure: Failure)
    | FinalizerPanicked(effects: seq<Effect>, hazard: Hazard)
    | FinalizerPassed(effects: seq<Effect>, stop: bool)

  /** The assumed contract of `utils.HandleFinalizer`. `hook` is what the
      cleanup callback would report; it is consulted only when the object is
      terminating and carries the finalizer. `release(obj)` is the update
      that strips the finalizer, `adopt` the update that adds it, and
      `stopAfterAdopt` the flag returned after a successful `adopt`. */
  function HandleFinalizer<T>(
    terminating: bool, finalizers: seq<string>, hook: Hook<T>,
    release: T -> Effect, adopt: Effect, stopAfterAdopt: bool,
    accepts: Effect -> bool): (r: FinalizerOutcome)
    // nothing to add and nothing to clean up: nothing happens
    ensures terminating == (Finalizer !in finalizers) ==> r == FinalizerPassed([], false)
    // a live object without the finalizer is given it
    ensures !terminating && Finalizer !in finalizers ==>
      && r.effects == [adopt] && !r.FinalizerPanicked?
      && (r.FinalizerFailed? <==> !accepts(adopt))
      && (r.FinalizerFailed? ==> r.failure == FinalizerUpdateFailed)
    // the cycle is asked to stop exactly after a successful removal, or
    // after a successful adoption when the helper says so
    ensures r.FinalizerPassed? && r.stop <==>
      || (terminating && Finalizer in finalizers && hook.HookDone? && hook.removable
          && accepts(release(hook.obj)))
      || (!terminating && Finalizer !in finalizers && accepts(adopt) && stopAfterAdopt)
    ensures terminating && Finalizer in finalizers ==>
      match hook
      case HookFailed(e, f) => r == FinalizerFailed(e, f)
      case HookPanicked(e, h) => r == FinalizerPanicked(e, h)
      case HookDone(e, removable, obj) =>
        r.effects == e + (if removable then [release(obj)] else [])
        && (r.FinalizerFailed? <==> removable && !accepts(release(obj)))
  {
    if !terminating then
      if Finalizer in finalizers then FinalizerPassed([], false)
      else if accepts(adopt) then FinalizerPassed([adopt], stopAfterAdopt)
      else FinalizerFailed([adopt], FinalizerUpdateFailed)
    else if Finalizer in finalizers then
      match hook
      case HookFailed(e, f) => FinalizerFailed(e, f)
      case HookPanicked(e, h) => FinalizerPanicked(e, h)
      case HookDone(e, removable, obj) =>
        if !removable then FinalizerPassed(e, false)
        else
          var u := release(obj);
          if accepts(u) then FinalizerPassed(e + [u], true)
          else FinalizerFailed(e + [u], FinalizerUpdateFailed)
    else FinalizerPassed([], false)
  }
}

=== FILE: launcher.dfy ===
/** Launching one worker (`tryStartWorker`): reserve a host port on the
    node of the first GPU, render the pod, imprint the workload's labels,
    the `gpus` annotation and the cleanup finalizer, and create it. */
module Launcher {
  import opened Wrappers
  import opened Types
  import opened Text

  /** The GPUs' names, in allocation order. */
  function GpuNames(gpus: seq<Gpu>): (names: seq<string>)
    ensures |names| == |gpus|
    ensures forall i :: 0 <= i < |gpus| ==> names[i] == gpus[i].name
  {
    if |gpus| == 0 then [] else [gpus[0].name] + GpuNames(gpus[1..])
  }

  /** The GPUs' object keys (`client.ObjectKeyFromObject`), in order. */
  function GpuKeys(gpus: seq<Gpu>): (keys: seq<NameNs>)
    ensures |keys| == |gpus|
    ensures forall i :: 0 <= i < |gpus| ==> keys[i] == NameNs(gpus[i].namespace, gpus[i].name)
  {
    if |gpus| == 0 then [] else [NameNs(gpus[0].namespace, gpus[0].name)] + GpuKeys(gpus[1..])
  }

  /** The annotation map, a nil map read as empty. */
  function AnnotationsOf(p: Pod): map<string, string>
  {
    p.annotations.GetOr(map[])
  }

  /** The labels, annotation and finalizer a worker carries on top of what
      the generator rendered. */
  function Imprint(pod: Pod, workload: string, hash: string, names: seq<string>): (p: Pod)
    ensures p.name == pod.name && p.nodeName == pod.nodeName && p.created == pod.created
    ensures WorkloadLabel in p.labels && p.labels[WorkloadLabel] == workload
    ensures TemplateHashLabel in p.labels && p.labels[TemplateHashLabel] == hash
    ensures p.annotations.Some? && GpusAnnotation in p.annotations.value
    ensures Finalizer in p.finalizers
  {
    pod.(labels := pod.labels[WorkloadLabel := workload][TemplateHashLabel := hash],
         annotations := Some(AnnotationsOf(pod)[GpusAnnotation := Join(names, ',')]),
         finalizers := pod.finalizers + [Finalizer])
  }

  /** The imprint adds the `workload` and `podTemplateHash` labels, the
      `gpus` annotation (the names joined by commas) and the cleanup
      finalizer; every other label, annotation and finalizer of the rendered
      pod is kept, and nothing else about the pod changes. */
  lemma ImprintContents(pod: Pod, workload: string, hash: string, names: seq<string>)
    ensures var p := Imprint(pod, workload, hash, names);
      && p.labels.Keys == pod.labels.Keys + {WorkloadLabel, TemplateHashLabel}
      && p.labels[WorkloadLabel] == workload && p.labels[TemplateHashLabel] == hash
      && (forall key :: key in pod.labels && key != WorkloadLabel && key != TemplateHashLabel ==>
            p.labels[key] == pod.labels[key])
      && p.annotations.Some?
      && p.annotations.value.Keys == AnnotationsOf(pod).Keys + {GpusAnnotation}
      && p.annotations.value[GpusAnnotation] == Join(names, ',')
      && (forall key :: key in AnnotationsOf(pod) && key != GpusAnnotation ==>
            p.annotations.value[key] == AnnotationsOf(pod)[key])
      && |p.finalizers| == |pod.finalizers| + 1
      && p.finalizers[..|pod.finalizers|] == pod.finalizers
      && p.finalizers[|pod.finalizers|] == Finalizer
      && p == pod.(labels := p.labels, annotations := p.annotations, finalizers := p.finalizers)
  {
  }

  datatype Launch =
    | Launched(effects: seq<Effect>, pod: Pod)
    | LaunchFailed(effects: seq<Effect>, cause: LaunchError)

  /** The node that hosts the first GPU. */
  function FirstNode(gpus: seq<Gpu>): string
    requires |gpus| > 0
  {
    Get(gpus[0].nodeSelector, HostnameLabel)
  }

  /** The generator's inputs for a worker on `gpus` with host port `port`. */
  function ArgsFor(gpus: seq<Gpu>, w: Workload, port: int, hash: string): GenerateArgs
  {
    GenerateArgs(gpus, w.name, w.namespace, port,
                 w.spec.resources.requests, w.spec.resources.limits, hash)
  }

  /** `tryStartWorker(gpus, workload, hash)`. */
  function TryStartWorker(
    gpus: seq<Gpu>, w: Workload, hash: string, attempt: nat,
    k: Collaborators, accepts: Effect -> bool): (r: Launch)
    // the only effects are one port request followed by at most one creation
    ensures |r.effects| <= 2
    ensures |r.effects| >= 1 ==> r.effects[0].AssignHostPort?
    ensures |r.effects| == 2 ==> r.effects[1].CreatePod?
    ensures r.Launched? ==> |gpus| > 0 && r.effects == [AssignHostPort(FirstNode(gpus)), CreatePod(r.pod)]
  {
    if |gpus| == 0 || gpus[0].labels.None? then LaunchFailed([], NoGpus)
    else
      var node := FirstNode(gpus);
      match k.assignPort(attempt, node)
      case None => LaunchFailed([AssignHostPort(node)], HostPortFailed)
      case Some(port) =>
        match k.generate(ArgsFor(gpus, w, port, hash))
        case None => LaunchFailed([AssignHostPort(node)], GenerateFailed)
        case Some(g) =>
          var pod := Imprint(g.pod, w.name, g.hash, GpuNames(gpus));
          if accepts(CreatePod(pod)) then Launched([AssignHostPort(node), CreatePod(pod)], pod)
          else LaunchFailed([AssignHostPort(node), CreatePod(pod)], CreateFailed)
  }

  /** An empty GPU list, or a first GPU without labels, is refused before a
      host port is asked for; otherwise the port request on the first GPU's
      node comes first. */
  lemma LaunchGuards(gpus: seq<Gpu>, w: Workload, hash: string, attempt: nat, k: Collaborators, accepts: Effect -> bool)
    ensures var r := TryStartWorker(gpus, w, hash, attempt, k, accepts);
      && (|gpus| == 0 || gpus[0].labels.None? <==> r == LaunchFailed([], NoGpus))
      && (r != LaunchFailed([], NoGpus) ==>
            |r.effects| >= 1 && r.effects[0] == AssignHostPort(FirstNode(gpus)))
  {
  }

  /** A worker is launched exactly when port, rendering and creation all
      succeed, and the created pod is the rendered pod with the workload's
      imprint: `workload=<name>`, `podTemplateHash=<the generator's hash>`,
      `gpus=<the GPU names joined by ",", in allocation order>`, and the
      cleanup finalizer appended after the rendered pod's finalizers. */
  lemma LaunchedWorker(gpus: seq<Gpu>, w: Workload, hash: string, attempt: nat, k: Collaborators, accepts: Effect -> bool)
    ensures var r := TryStartWorker(gpus, w, hash, attempt, k, accepts);
      r.Launched? <==>
        && |gpus| > 0 && gpus[0].labels.Some?
        && k.assignPort(attempt, FirstNode(gpus)).Some?
        && k.generate(ArgsFor(gpus, w, k.assignPort(attempt, FirstNode(gpus)).value, hash)).Some?
        && var g := k.generate(ArgsFor(gpus, w, k.assignPort(attempt, FirstNode(gpus)).value, hash)).value;
        && accepts(CreatePod(Imprint(g.pod, w.name, g.hash, GpuNames(gpus))))
    ensures var r := TryStartWorker(gpus, w, hash, attempt, k, accepts);
      r.Launched? ==>
        var g := k.generate(ArgsFor(gpus, w, k.assignPort(attempt, FirstNode(gpus)).value, hash)).value;
        && r.pod == Imprint(g.pod, w.name, g.hash, GpuNames(gpus))
        && WorkloadLabel in r.pod.labels && r.pod.labels[WorkloadLabel] == w.name
        && TemplateHashLabel in r.pod.labels && r.pod.labels[TemplateHashLabel] == g.hash
        && Annotation(r.pod, GpusAnnotation) == Some(Join(GpuNames(gpus), ','))
        && r.pod.finalizers == g.pod.finalizers + [Finalizer]
  {
  }
}

=== FILE: reconciler.dfy ===
/** The reconcile cycle (`Reconcile`): read the workload and its pods, run
    the workload's finalizer, clean up terminating pods, then roll, scale
    and publish status. */
module Reconciler {
  import opened Wrappers
  import opened Types
  import opened Decimal
  import opened Finalizers
  import opened Launcher
  import opened Cleanup
  import opened Scaling
  import opened Aggregation

  /** The cleanup hook of the workload's finalizer: delete every pod of the
      workload when one of them is not yet terminating, and allow the
      finalizer to go only once the pod list is empty. */
  function WorkloadFinalizerHook(w: Workload, pods: seq<Pod>, accepts: Effect -> bool): (r: Hook<Workload>)
    ensures !r.HookPanicked?
    ensures r.HookDone? ==> r.obj == w && (r.removable <==> |pods| == 0)
    ensures r.HookFailed? ==> r.failure == DeleteAllPodsFailed && !accepts(DeleteAllPods(w.namespace, w.name))
  {
    var deleteAll := DeleteAllPods(w.namespace, w.name);
    if exists i :: 0 <= i < |pods| && Live(pods[i]) then
      if accepts(deleteAll) then HookDone([deleteAll], |pods| == 0, w)
      else HookFailed([deleteAll], DeleteAllPodsFailed)
    else HookDone([], |pods| == 0, w)
  }

  /** The update that strips the finalizer from a workload. */
  function StripWorkload(w: Workload): Effect
  {
    UpdateWorkload(w.(finalizers := Without(w.finalizers, Finalizer)))
  }

  /** A pod as the API server stores it after accepting an update that
      sent `p`: with the new resourceVersion, which `Update` writes back
      into the caller's pod. */
  function AsStored(p: Pod, k: Collaborators): (q: Pod)
    ensures q.resourceVersion == k.podVersion(p) && q.(resourceVersion := p.resourceVersion) == p
  {
    p.(resourceVersion := k.podVersion(p))
  }

  /** The update that strips the finalizer from a pod. */
  function StripPod(p: Pod): Effect
  {
    UpdatePod(p.(finalizers := Without(p.finalizers, Finalizer)))
  }

  /** The update that gives a workload the finalizer. */
  function AdoptWorkload(w: Workload): Effect
  {
    UpdateWorkload(w.(finalizers := w.finalizers + [Finalizer]))
  }

  /** The update that gives a pod the finalizer. */
  function AdoptPod(p: Pod): Effect
  {
    UpdatePod(p.(finalizers := p.finalizers + [Finalizer]))
  }

  /** A pod without the finalizer. */
  predicate Lacks(p: Pod)
  {
    Finalizer !in p.finalizers
  }

  /** The update a pod needs to carry the finalizer: none when it has it. */
  function AdoptionOf(p: Pod): seq<Effect>
  {
    if Lacks(p) then [AdoptPod(p)] else []
  }

  /** The updates that give the finalizer to the listed pods lacking it,
      in list order. */
  function Adoptions(pods: seq<Pod>): (es: seq<Effect>)
    ensures |es| <= |pods| && NoneConverging(es)
    ensures es == [] <==> forall i :: 0 <= i < |pods| ==> Finalizer in pods[i].finalizers
  {
    if |pods| == 0 then []
    else
      assert forall i :: 1 <= i < |pods| ==> pods[i] == pods[1..][i - 1];
      AdoptionOf(pods[0]) + Adoptions(pods[1..])
  }

  /** The adopting updates are those of the pods lacking the finalizer,
      each once and in list order: the j-th is that of the pod at the j-th
      such position (see `PositionsComplete`). */
  lemma {:induction false} AdoptionsInOrder(pods: seq<Pod>)
    ensures |Adoptions(pods)| == |Positions(pods, Lacks)|
    ensures forall j :: 0 <= j < |Adoptions(pods)| ==> Adoptions(pods)[j] == AdoptPod(pods[Positions(pods, Lacks)[j]])
  {
    if |pods| > 0 {
      var n := |pods| - 1;
      var front := pods[..n];
      AdoptionsInOrder(front);
      AdoptionsBack(pods);
      var a := Adoptions(pods);
      var b := Adoptions(front);
      var ps := Positions(pods, Lacks);
      var pt := Positions(front, Lacks);
      assert a == b + AdoptionOf(pods[n]);
      assert ps == pt + (if Lacks(pods[n]) then [n] else []);
      forall j | 0 <= j < |a|
        ensures a[j] == AdoptPod(pods[ps[j]])
      {
        if j < |b| {
          assert a[j] == b[j] && ps[j] == pt[j];
          assert pods[pt[j]] == front[pt[j]];
        }
      }
    }
  }

  /** `Adoptions` split at the last pod. */
  lemma {:induction false} AdoptionsBack(pods: seq<Pod>)
    requires |pods| > 0
    ensures Adoptions(pods) == Adoptions(pods[..|pods| - 1]) + AdoptionOf(pods[|pods| - 1])
    decreases |pods|
  {
    var n := |pods| - 1;
    var front := pods[..n];
    if n == 0 {
      assert front == [] && pods[1..] == [];
      assert Adoptions(pods) == AdoptionOf(pods[0]) + Adoptions([]);
    } else {
      var tail := pods[1..];
      AdoptionsBack(tail);
      assert tail[..n - 1] == front[1..];
      assert front[0] == pods[0] && tail[n - 1] == pods[n];
      var x, y, z := AdoptionOf(pods[0]), Adoptions(front[1..]), AdoptionOf(pods[n]);
      assert Adoptions(tail) == y + z;
      assert Adoptions(front) == x + y;
      assert Adoptions(pods) == x + (y + z);
      assert x + (y + z) == (x + y) + z;
    }
  }

  /** A pod as the finalizer helper leaves it once the pass succeeded: a
      pod that lacked the finalizer carries it, with the resourceVersion
      the API server gave it. */
  function Adopted(p: Pod, k: Collaborators): Pod
  {
    if Lacks(p) then AsStored(AdoptPod(p).pod, k) else p
  }

  /** The pod list as held after the pass over the pods succeeded. */
  function AdoptedPods(pods: seq<Pod>, k: Collaborators): (r: seq<Pod>)
    ensures |r| == |pods|
  {
    seq(|pods|, i requires 0 <= i < |pods| => Adopted(pods[i], k))
  }

  /** After the pass every pod carries the finalizer. A pod that had it is
      untouched; one that lacked it changes only in its finalizers (one
      appended) and its resourceVersion, which is the API server's. */
  lemma AdoptedPodsShape(pods: seq<Pod>, k: Collaborators)
    ensures forall i :: 0 <= i < |pods| ==> Finalizer in AdoptedPods(pods, k)[i].finalizers
    ensures forall i :: 0 <= i < |pods| && !Lacks(pods[i]) ==> AdoptedPods(pods, k)[i] == pods[i]
    ensures forall i :: 0 <= i < |pods| && Lacks(pods[i]) ==>
      && AdoptedPods(pods, k)[i].finalizers == pods[i].finalizers + [Finalizer]
      && AdoptedPods(pods, k)[i].resourceVersion == k.podVersion(AdoptPod(pods[i]).pod)
      && AdoptedPods(pods, k)[i].(finalizers := pods[i].finalizers, resourceVersion := pods[i].resourceVersion) == pods[i]
    ensures forall i :: 0 <= i < |pods| ==>
      AdoptedPods(pods, k)[i].labels == pods[i].labels && Live(AdoptedPods(pods, k)[i]) == Live(pods[i])
    ensures (forall i :: 0 <= i < |pods| ==> !Lacks(pods[i])) ==> AdoptedPods(pods, k) == pods
  {
  }

  /** Every listed pod either carries the finalizer or would accept it. */
  predicate AdoptionsAccepted(pods: seq<Pod>, accepts: Effect -> bool)
  {
    forall i :: 0 <= i < |pods| ==> Finalizer in pods[i].finalizers || accepts(AdoptPod(pods[i]))
  }

  /** The host port recorded on a pod: its port annotation read as a
      decimal, `0` when missing or malformed (the conversion error is
      ignored). */
  function RecordedPort(p: Pod): (port: int)
    ensures MinInt64 <= port <= MaxInt64
    ensures PortAnnotation !in AnnotationsOf(p) ==> port == 0
  {
    Atoi(Get(AnnotationsOf(p), PortAnnotation))
  }

  /** The pass over the listed pods, in order: a terminating pod gives its
      host port back, every pod goes through the cleanup finalizer, a
      finalizer error or panic ends the cycle at once, and a terminating pod
      anywhere in the list makes the cycle end with a delayed requeue. */
  function CleanupPods(pods: seq<Pod>, w: Workload, k: Collaborators, accepts: Effect -> bool): (r: Step)
    ensures r.outcome != Requeue
  {
    if |pods| == 0 then Step([], Done)
    else
      var p := pods[0];
      var port := if p.terminating then [ReleaseHostPort(p.nodeName, p.name, RecordedPort(p))] else [];
      var hook := HandlePodGPUCleanup(p, w, k.marker(p.name), k.podVersion, accepts);
      match HandleFinalizer(p.terminating, p.finalizers, hook, StripPod, AdoptPod(p), k.stopAfterAdopt, accepts)
      case FinalizerFailed(e, f) => Step(port + e, Error(f))
      case FinalizerPanicked(e, h) => Step(port + e, Panic(h))
      case FinalizerPassed(e, _) =>
        var rest := CleanupPods(pods[1..], w, k, accepts);
        Step(port + e + rest.effects,
             if rest.outcome == Done && p.terminating then RequeueAfter else rest.outcome)
  }

  /** `Reconcile`. */
  function Reconcile(c: Cluster, k: Collaborators): (r: Step)
    // nothing is issued unless the workload and its pods were read
    ensures !(c.read.Found? && c.pods.Some?) ==> r.effects == []
    ensures c.read.NotFound? ==> r.outcome == Done
  {
    match c.read
    case NotFound => Step([], Done)
    case ReadFailed => Step([], Error(ReadWorkloadFailed))
    case Found(w) =>
      match c.pods
      case None => Step([], Error(ListPodsFailed))
      case Some(pods) =>
        match WorkloadFinalizer(w, pods, k, c.accepts)
        case FinalizerFailed(e, f) => Step(e, Error(WorkloadFinalizerFailed(f)))
        case FinalizerPanicked(e, h) => Step(e, Panic(h))
        case FinalizerPassed(e, stop) =>
          if stop then Step(e, Done) else Prepend(e, AfterFinalizer(w, pods, c, k))
  }

  /** The cycle after the workload's finalizer let it continue. */
  function AfterFinalizer(w: Workload, pods: seq<Pod>, c: Cluster, k: Collaborators): Step
  {
    var cleanup := CleanupPods(pods, w, k, c.accepts);
    if cleanup.outcome != Done then cleanup
    else Prepend(cleanup.effects, Provision(w, AdoptedPods(pods, k), c, k))
  }

  /** The cycle once no pod is terminating: a terminating workload stops
      here; otherwise the pool and the template hash are looked up, a new
      hash is recorded in the status, and the pods are rolled, scaled and
      summarised. */
  function Provision(w: Workload, pods: seq<Pod>, c: Cluster, k: Collaborators): Step
  {
    if w.terminating then Step([], Done)
    else if !c.poolFound then Step([], Error(PoolMissing(w.spec.poolName)))
    else
      match k.templateHash
      case None => Step([], Error(TemplateHashFailed))
      case Some(hash) =>
        if w.status.podTemplateHash == hash then Converge(w, pods, hash, k, c.accepts)
        else
          var w1 := w.(status := w.status.(podTemplateHash := hash));
          var write := WriteStatus(w1.status);
          if !c.accepts(write) then Step([write], Error(StatusUpdateFailed))
          else Prepend([write], Converge(w1, pods, hash, k, c.accepts))
  }

  /** `reconcileScaling`, then, when it asks for nothing else, `updateStatus`
      on the workload and pod list as it left them. */
  function Converge(w: Workload, pods: seq<Pod>, hash: string, k: Collaborators, accepts: Effect -> bool): Step
  {
    var s := ReconcileScaling(w, pods, hash, k, accepts);
    if s.step.outcome != Done then s.step
    else Prepend(s.step.effects, UpdateStatus(s.workload, s.pods, k, accepts))
  }

  lemma NoneConvergingConcat(a: seq<Effect>, b: seq<Effect>)
    requires NoneConverging(a) && NoneConverging(b)
    ensures NoneConverging(a + b)
  {
    assert forall i :: |a| <= i < |a + b| ==> (a + b)[i] == b[i - |a|];
  }

  /** The workload's cleanup hook deletes the pods (with one collection
      delete) exactly when one of them is not yet terminating, fails only
      when that delete is refused, and lets the finalizer go exactly when
      no pod is left, in which case it issued nothing. */
  lemma WorkloadHookDeletesPods(w: Workload, pods: seq<Pod>, accepts: Effect -> bool)
    ensures var r := WorkloadFinalizerHook(w, pods, accepts);
      var live := exists i :: 0 <= i < |pods| && Live(pods[i]);
      && (|r.effects| > 0 <==> live)
      && (forall j :: 0 <= j < |r.effects| ==> r.effects[j] == DeleteAllPods(w.namespace, w.name))
      && (r.HookFailed? <==> live && !accepts(DeleteAllPods(w.namespace, w.name)))
      && (r.HookFailed? ==> r.failure == DeleteAllPodsFailed)
      && !r.HookPanicked?
      && (r.HookDone? ==> r.obj == w && (r.removable <==> |pods| == 0))
      && (r.HookDone? && r.removable ==> r.effects == [])
  {
  }

  /** The pass over the pods issues nothing that scales or publishes
      status: only port releases, pod updates and GPU releases. */
  lemma {:induction false} CleanupPodsConvergesNothing(pods: seq<Pod>, w: Workload, k: Collaborators, accepts: Effect -> bool)
    ensures NoneConverging(CleanupPods(pods, w, k, accepts).effects)
  {
    if |pods| > 0 {
      var p := pods[0];
      var port := if p.terminating then [ReleaseHostPort(p.nodeName, p.name, RecordedPort(p))] else [];
      var hook := HandlePodGPUCleanup(p, w, k.marker(p.name), k.podVersion, accepts);
      var f := HandleFinalizer(p.terminating, p.finalizers, hook, StripPod, AdoptPod(p), k.stopAfterAdopt, accepts);
      PodFinalizerQuiet(p, w, k, accepts);
      NoneConvergingConcat(port, f.effects);
      if f.FinalizerPassed? {
        CleanupPodsConvergesNothing(pods[1..], w, k, accepts);
        NoneConvergingConcat(port + f.effects, CleanupPods(pods[1..], w, k, accepts).effects);
      }
    }
  }

  /** A pod's finalizer stage only updates the pod and releases its GPUs. */
  lemma PodFinalizerQuiet(p: Pod, w: Workload, k: Collaborators, accepts: Effect -> bool)
    ensures NoneConverging(HandleFinalizer(p.terminating, p.finalizers, HandlePodGPUCleanup(p, w, k.marker(p.name), k.podVersion, accepts),
                                           StripPod, AdoptPod(p), k.stopAfterAdopt, accepts).effects)
  {
    var hook := HandlePodGPUCleanup(p, w, k.marker(p.name), k.podVersion, accepts);
    var f := HandleFinalizer(p.terminating, p.finalizers, hook, StripPod, AdoptPod(p), k.stopAfterAdopt, accepts);
    if !p.terminating || Finalizer !in p.finalizers {
      assert f.effects == [] || f.effects == [AdoptPod(p)];
    } else {
      assert NoneConverging(hook.effects);
      if hook.HookDone? && hook.removable {
        assert f.effects == hook.effects + [StripPod(hook.obj)];
      }
    }
  }

  /** A terminating pod whose release marker was accepted loses the
      finalizer by an update built on the pod as the marker update left
      it: the marked pod with the API server's new resourceVersion. */
  lemma StripAfterMarker(p: Pod, w: Workload, k: Collaborators, accepts: Effect -> bool)
    requires p.terminating && Finalizer in p.finalizers && p.annotations.Some?
    requires accepts(UpdatePod(Marked(p, k.marker(p.name))))
    ensures var m := Marked(p, k.marker(p.name));
      var f := HandleFinalizer(p.terminating, p.finalizers, HandlePodGPUCleanup(p, w, k.marker(p.name), k.podVersion, accepts),
                               StripPod, AdoptPod(p), k.stopAfterAdopt, accepts);
      && |f.effects| >= 2
      && f.effects[|f.effects| - 1]
         == UpdatePod(m.(finalizers := Without(m.finalizers, Finalizer), resourceVersion := k.podVersion(m)))
      && (f.FinalizerPassed? <==> accepts(f.effects[|f.effects| - 1]))
  {
  }

  /** The pass over the pods carries on only when no pod is terminating;
      a terminating pod ends the cycle with a delayed requeue, or with the
      first error or panic. */
  lemma {:induction false} CleanupPodsDefers(pods: seq<Pod>, w: Workload, k: Collaborators, accepts: Effect -> bool)
    ensures CleanupPods(pods, w, k, accepts).outcome == Done ==> forall i :: 0 <= i < |pods| ==> Live(pods[i])
  {
    if |pods| > 0 {
      var p := pods[0];
      var hook := HandlePodGPUCleanup(p, w, k.marker(p.name), k.podVersion, accepts);
      var f := HandleFinalizer(p.terminating, p.finalizers, hook, StripPod, AdoptPod(p), k.stopAfterAdopt, accepts);
      if f.FinalizerPassed? {
        CleanupPodsDefers(pods[1..], w, k, accepts);
        assert forall i :: 1 <= i < |pods| ==> pods[i] == pods[1..][i - 1];
      }
    }
  }

  /** The pass over the pods at a live pod: it is passed over when it
      carries the finalizer, and otherwise given it first. */
  lemma CleanupLiveHead(pods: seq<Pod>, w: Workload, k: Collaborators, accepts: Effect -> bool)
    requires |pods| > 0 && Live(pods[0])
    ensures var p := pods[0];
      var rest := CleanupPods(pods[1..], w, k, accepts);
      CleanupPods(pods, w, k, accepts)
        == if Finalizer in p.finalizers then Step([] + [] + rest.effects, rest.outcome)
           else if accepts(AdoptPod(p)) then Step([] + [AdoptPod(p)] + rest.effects, rest.outcome)
           else Step([] + [AdoptPod(p)], Error(FinalizerUpdateFailed))
  {
  }

  /** With every pod live, the pass over the pods only gives the finalizer
      to the pods lacking it, in order, and stops at the first refused
      update; it carries on exactly when every such update is accepted. */
  lemma {:induction false} CleanupPodsLive(pods: seq<Pod>, w: Workload, k: Collaborators, accepts: Effect -> bool)
    requires forall i :: 0 <= i < |pods| ==> Live(pods[i])
    ensures CleanupPods(pods, w, k, accepts).outcome == Done <==> AdoptionsAccepted(pods, accepts)
    ensures CleanupPods(pods, w, k, accepts).outcome in {Done, Error(FinalizerUpdateFailed)}
    ensures CleanupPods(pods, w, k, accepts).effects <= Adoptions(pods)
    ensures CleanupPods(pods, w, k, accepts).outcome == Done ==> CleanupPods(pods, w, k, accepts).effects == Adoptions(pods)
  {
    if |pods| > 0 {
      var p := pods[0];
      var tail := pods[1..];
      assert forall i :: 1 <= i < |pods| ==> pods[i] == tail[i - 1];
      CleanupPodsLive(tail, w, k, accepts);
      CleanupLiveHead(pods, w, k, accepts);
      AdoptionsCons(pods, accepts);
      var rest := CleanupPods(tail, w, k, accepts);
      var mine := AdoptionOf(p);
      if Lacks(p) && !accepts(AdoptPod(p)) {
        assert CleanupPods(pods, w, k, accepts) == Step(mine, Error(FinalizerUpdateFailed));
      } else {
        assert CleanupPods(pods, w, k, accepts) == Step(mine + rest.effects, rest.outcome);
        PrefixExtends(mine, rest.effects, Adoptions(tail));
      }
    }
  }

  /** Giving pods the finalizer leaves their template labels alone. */
  lemma AdoptedStillCurrent(pods: seq<Pod>, k: Collaborators, hash: string)
    ensures AllCurrent(AdoptedPods(pods, k), hash) <==> AllCurrent(pods, hash)
  {
    AdoptedPodsShape(pods, k);
  }

  /** A common front keeps one sequence a prefix of another. */
  lemma PrefixExtends<T>(front: seq<T>, a: seq<T>, b: seq<T>)
    requires a <= b
    ensures front + a <= front + b
  {
    assert (front + b)[..|front + a|] == front + a;
  }

  /** `Adoptions` and `AdoptionsAccepted` split at the first pod. */
  lemma AdoptionsCons(pods: seq<Pod>, accepts: Effect -> bool)
    requires |pods| > 0
    ensures Adoptions(pods) == AdoptionOf(pods[0]) + Adoptions(pods[1..])
    ensures AdoptionsAccepted(pods, accepts) <==>
      (Finalizer in pods[0].finalizers || accepts(AdoptPod(pods[0]))) && AdoptionsAccepted(pods[1..], accepts)
  {
    assert forall i :: 1 <= i < |pods| ==> pods[i] == pods[1..][i - 1];
  }

  /** The workload's finalizer stage in a cycle. */
  function WorkloadFinalizer(w: Workload, pods: seq<Pod>, k: Collaborators, accepts: Effect -> bool): FinalizerOutcome
  {
    HandleFinalizer(w.terminating, w.finalizers, WorkloadFinalizerHook(w, pods, accepts),
                    StripWorkload, AdoptWorkload(w), k.stopAfterAdopt, accepts)
  }

  /** The workload's finalizer stage only deletes pods and adds or strips
      the finalizer, and never panics; it does nothing to a live workload
      that carries the finalizer, and ends the cycle only by removing the
      finalizer, which needs an empty pod list, or by adding it. */
  lemma WorkloadFinalizerStage(w: Workload, pods: seq<Pod>, k: Collaborators, accepts: Effect -> bool)
    ensures var f := WorkloadFinalizer(w, pods, k, accepts);
      && NoneConverging(f.effects)
      && !f.FinalizerPanicked?
      && (!w.terminating && Finalizer in w.finalizers ==> f == FinalizerPassed([], false))
      && (f.FinalizerPassed? && f.stop ==>
            || (|pods| == 0 && f.effects == [StripWorkload(w)])
            || (!w.terminating && k.stopAfterAdopt && f.effects == [AdoptWorkload(w)]))
  {
    WorkloadHookDeletesPods(w, pods, accepts);
  }

  /** A live workload without the finalizer is first given it; a refused
      update ends the cycle with a finalizer error, and an accepted one
      either ends the cycle or lets it carry on, as the helper answers. */
  lemma WorkloadAdoption(c: Cluster, k: Collaborators)
    requires c.read.Found? && c.pods.Some?
    requires !c.read.workload.terminating && Finalizer !in c.read.workload.finalizers
    ensures var w := c.read.workload;
      && (!c.accepts(AdoptWorkload(w)) ==>
            Reconcile(c, k) == Step([AdoptWorkload(w)], Error(WorkloadFinalizerFailed(FinalizerUpdateFailed))))
      && (c.accepts(AdoptWorkload(w)) && k.stopAfterAdopt ==> Reconcile(c, k) == Step([AdoptWorkload(w)], Done))
      && (c.accepts(AdoptWorkload(w)) && !k.stopAfterAdopt ==>
            Reconcile(c, k) == Prepend([AdoptWorkload(w)], AfterFinalizer(w, c.pods.value, c, k)))
  {
  }

  /** A terminating pod defers everything else: the cycle issues nothing
      that scales or publishes status, and ends with a delayed requeue, an
      error or a panic, unless it ended right after giving the workload
      its finalizer. */
  lemma TerminatingPodDefersScaling(c: Cluster, k: Collaborators)
    requires c.read.Found? && c.pods.Some?
    requires exists i :: 0 <= i < |c.pods.value| && !Live(c.pods.value[i])
    ensures var r := Reconcile(c, k);
      && NoneConverging(r.effects)
      && (|| r.outcome == RequeueAfter || r.outcome.Error? || r.outcome.Panic?
          || (k.stopAfterAdopt && r == Step([AdoptWorkload(c.read.workload)], Done)))
  {
    var w := c.read.workload;
    var pods := c.pods.value;
    var f := WorkloadFinalizer(w, pods, k, c.accepts);
    WorkloadFinalizerStage(w, pods, k, c.accepts);
    if f.FinalizerPassed? {
      var cl := CleanupPods(pods, w, k, c.accepts);
      CleanupPodsConvergesNothing(pods, w, k, c.accepts);
      CleanupPodsDefers(pods, w, k, c.accepts);
      assert AfterFinalizer(w, pods, c, k) == cl;
      NoneConvergingConcat(f.effects, cl.effects);
    }
  }

  /** A terminating workload is never scaled: the cycle issues nothing
      that allocates, creates, deletes a single pod or publishes status. */
  lemma TerminatingWorkloadConvergesNothing(c: Cluster, k: Collaborators)
    requires c.read.Found? && c.read.workload.terminating
    ensures NoneConverging(Reconcile(c, k).effects)
    ensures Reconcile(c, k).outcome != Requeue
  {
    if c.pods.Some? {
      var w := c.read.workload;
      var pods := c.pods.value;
      var f := WorkloadFinalizer(w, pods, k, c.accepts);
      WorkloadFinalizerStage(w, pods, k, c.accepts);
      if f.FinalizerPassed? && !f.stop {
        var cl := CleanupPods(pods, w, k, c.accepts);
        CleanupPodsConvergesNothing(pods, w, k, c.accepts);
        CleanupPodsDefers(pods, w, k, c.accepts);
        if cl.outcome == Done {
          assert AfterFinalizer(w, pods, c, k) == Step(cl.effects, Done);
        }
        NoneConvergingConcat(f.effects, AfterFinalizer(w, pods, c, k).effects);
      }
    }
  }

  /** A deleted workload whose pods are all gone loses its finalizer and
      the cycle ends; a refused update is reported as a finalizer error. */
  lemma DeletedWorkloadReleased(c: Cluster, k: Collaborators)
    requires c.read.Found? && c.pods == Some([])
    requires c.read.workload.terminating && Finalizer in c.read.workload.finalizers
    ensures var w := c.read.workload;
      Reconcile(c, k) == Step([StripWorkload(w)],
        if c.accepts(StripWorkload(w)) then Done else Error(WorkloadFinalizerFailed(FinalizerUpdateFailed)))
  {
    WorkloadHookDeletesPods(c.read.workload, [], c.accepts);
  }

  /** The most workers a cycle may create for `w` with `pods` listed. */
  function Shortfall(w: Workload, pods: seq<Pod>): nat
  {
    if DesiredReplicas(w.spec) > |pods| then DesiredReplicas(w.spec) - |pods| else 0
  }

  /** `es` creates at most `n` pods, and does not both create pods and
      delete single pods. */
  predicate Bounded(es: seq<Effect>, n: nat)
  {
    Count(es, KCreate) <= n && (Count(es, KCreate) == 0 || Count(es, KDelete) == 0)
  }

  /** Effects that create and delete nothing keep a bound when put first. */
  lemma BoundedPrepend(pre: seq<Effect>, es: seq<Effect>, n: nat)
    requires Count(pre, KCreate) == 0 && Count(pre, KDelete) == 0
    requires Bounded(es, n)
    ensures Bounded(pre + es, n)
  {
    CountAppend(pre, es, KCreate);
    CountAppend(pre, es, KDelete);
  }

  /** Effects that converge nothing create no pod and delete no single pod. */
  lemma QuietEffectsCreateNothing(es: seq<Effect>)
    requires NoneConverging(es)
    ensures Count(es, KCreate) == 0 && Count(es, KDelete) == 0
  {
    CountZero(es, KCreate);
    CountZero(es, KDelete);
  }

  /** A status write alone creates and deletes nothing. */
  lemma WriteCreatesNothing(st: WorkloadStatus)
    ensures Count([WriteStatus(st)], KCreate) == 0 && Count([WriteStatus(st)], KDelete) == 0
  {
    assert [WriteStatus(st)][1..] == [];
  }

  /** Scaling towards the desired count creates at most the missing
      workers and never both creates and deletes. */
  lemma TowardsBounded(w: Workload, pods: seq<Pod>, hash: string, k: Collaborators, accepts: Effect -> bool)
    ensures Bounded(ScaleTowards(w, pods, hash, k, accepts).step.effects, Shortfall(w, pods))
  {
    var desired := DesiredReplicas(w.spec);
    if |pods| < desired {
      ScaleTowardsUp(w, pods, hash, k, accepts);
    } else if 0 <= desired < |pods| {
      ScaleTowardsDown(w, pods, hash, k, accepts);
    } else if desired < 0 {
      ScaleTowardsNegative(w, pods, hash, k, accepts);
    }
  }

  /** `reconcileScaling` creates at most the missing workers and never
      both creates and deletes. */
  lemma ScalingBounded(w: Workload, pods: seq<Pod>, hash: string, k: Collaborators, accepts: Effect -> bool)
    ensures Bounded(ReconcileScaling(w, pods, hash, k, accepts).step.effects, Shortfall(w, pods))
  {
    if !AllCurrent(pods, hash) {
      ScaleDownCounts(Outdated(pods, hash), accepts);
    } else {
      var w1 := WithReplicas(w, |pods|);
      var t := ScaleTowards(w1, pods, hash, k, accepts);
      TowardsBounded(w1, pods, hash, k, accepts);
      assert Shortfall(w1, pods) == Shortfall(w, pods);
      WriteCreatesNothing(w1.status);
      if w.status.replicas != |pods| && accepts(WriteStatus(w1.status)) {
        BoundedPrepend([WriteStatus(w1.status)], t.step.effects, Shortfall(w, pods));
      }
    }
  }

  /** Rolling, scaling and publishing never create more workers than are
      missing, and never both create and delete pods. */
  lemma ConvergeBounded(w: Workload, pods: seq<Pod>, hash: string, k: Collaborators, accepts: Effect -> bool)
    ensures Bounded(Converge(w, pods, hash, k, accepts).effects, Shortfall(w, pods))
  {
    var s := ReconcileScaling(w, pods, hash, k, accepts);
    ScalingBounded(w, pods, hash, k, accepts);
    if s.step.outcome == Done {
      var u := UpdateStatus(s.workload, s.pods, k, accepts);
      UpdateStatusIssuesNoWork(s.workload, s.pods, k, accepts);
      CountAppend(s.step.effects, u.effects, KCreate);
      CountAppend(s.step.effects, u.effects, KDelete);
    }
  }

  /** After the finalizer and cleanup stages, the cycle creates at most the
      missing workers and never both creates and deletes. */
  lemma ProvisionBounded(w: Workload, pods: seq<Pod>, c: Cluster, k: Collaborators)
    ensures Bounded(Provision(w, pods, c, k).effects, Shortfall(w, pods))
  {
    if !w.terminating && c.poolFound && k.templateHash.Some? {
      var hash := k.templateHash.value;
      if w.status.podTemplateHash == hash {
        ConvergeBounded(w, pods, hash, k, c.accepts);
      } else {
        var w1 := w.(status := w.status.(podTemplateHash := hash));
        WriteCreatesNothing(w1.status);
        if c.accepts(WriteStatus(w1.status)) {
          ConvergeBounded(w1, pods, hash, k, c.accepts);
          assert Shortfall(w1, pods) == Shortfall(w, pods);
          BoundedPrepend([WriteStatus(w1.status)], Converge(w1, pods, hash, k, c.accepts).effects, Shortfall(w, pods));
        }
      }
    }
  }

  /** A whole cycle creates at most as many workers as the declared
      replicas exceed the listed pods, and never creates and deletes
      workers in the same cycle. */
  lemma ReconcileBounded(c: Cluster, k: Collaborators)
    requires c.read.Found? && c.pods.Some?
    ensures Bounded(Reconcile(c, k).effects, Shortfall(c.read.workload, c.pods.value))
  {
    var w := c.read.workload;
    var pods := c.pods.value;
    var n := Shortfall(w, pods);
    var f := WorkloadFinalizer(w, pods, k, c.accepts);
    WorkloadFinalizerStage(w, pods, k, c.accepts);
    QuietEffectsCreateNothing(f.effects);
    if f.FinalizerPassed? && !f.stop {
      var cl := CleanupPods(pods, w, k, c.accepts);
      CleanupPodsConvergesNothing(pods, w, k, c.accepts);
      QuietEffectsCreateNothing(cl.effects);
      if cl.outcome == Done {
        var held := AdoptedPods(pods, k);
        assert Shortfall(w, held) == n;
        ProvisionBounded(w, held, c, k);
        BoundedPrepend(cl.effects, Provision(w, held, c, k).effects, n);
      }
      BoundedPrepend(f.effects, AfterFinalizer(w, pods, c, k).effects, n);
    }
  }

  /** A live workload that carries the finalizer, whose pods are all live
      and would accept the finalizer, with its pool present and a template
      hash other than the recorded one, records the new hash in its status
      right after the pods' finalizer updates; a refused write ends the
      cycle with an error. */
  lemma HashRecorded(c: Cluster, k: Collaborators)
    requires c.read.Found? && c.pods.Some? && !c.read.workload.terminating
    requires Finalizer in c.read.workload.finalizers
    requires forall i :: 0 <= i < |c.pods.value| ==> Live(c.pods.value[i])
    requires AdoptionsAccepted(c.pods.value, c.accepts)
    requires c.poolFound && k.templateHash.Some?
    requires k.templateHash.value != c.read.workload.status.podTemplateHash
    ensures var n := |Adoptions(c.pods.value)|;
      && |Reconcile(c, k).effects| > n
      && Reconcile(c, k).effects[..n] == Adoptions(c.pods.value)
      && Reconcile(c, k).effects[n]
         == WriteStatus(c.read.workload.status.(podTemplateHash := k.templateHash.value))
    ensures !c.accepts(WriteStatus(c.read.workload.status.(podTemplateHash := k.templateHash.value))) ==>
      Reconcile(c, k)
        == Step(Adoptions(c.pods.value) + [WriteStatus(c.read.workload.status.(podTemplateHash := k.templateHash.value))],
                Error(StatusUpdateFailed))
  {
    LiveCycleProvisions(c, k);
  }

  /** With a live workload that carries the finalizer and every pod live,
      the finalizer and cleanup stages only give the finalizer to the pods
      lacking it: once all those updates are accepted the cycle goes on to
      the provisioning stage, and otherwise it ends with the refused
      update's error. */
  lemma LiveCycleProvisions(c: Cluster, k: Collaborators)
    requires c.read.Found? && c.pods.Some? && !c.read.workload.terminating
    requires Finalizer in c.read.workload.finalizers
    requires forall i :: 0 <= i < |c.pods.value| ==> Live(c.pods.value[i])
    ensures AdoptionsAccepted(c.pods.value, c.accepts) ==>
      Reconcile(c, k) == Prepend(Adoptions(c.pods.value), Provision(c.read.workload, AdoptedPods(c.pods.value, k), c, k))
    ensures !AdoptionsAccepted(c.pods.value, c.accepts) ==>
      && Reconcile(c, k).outcome == Error(FinalizerUpdateFailed)
      && Reconcile(c, k).effects <= Adoptions(c.pods.value)
  {
    var w := c.read.workload;
    var pods := c.pods.value;
    WorkloadFinalizerStage(w, pods, k, c.accepts);
    CleanupPodsLive(pods, w, k, c.accepts);
    var a := AfterFinalizer(w, pods, c, k);
    assert Reconcile(c, k) == Step([] + a.effects, a.outcome);
    assert [] + a.effects == a.effects;
  }

  /** In the steady state (a live workload carrying the finalizer, whose
      live pods carry the current template and would accept the finalizer,
      match the declared replicas as recorded, and whose stored status is
      the one the cycle computes from the pods as held after their
      finalizer updates) the cycle succeeds and issues nothing but
      the pods' finalizer updates and the worker-failure warning. */
  lemma SteadyStateIsQuiet(c: Cluster, k: Collaborators)
    requires c.read.Found? && c.pods.Some? && !c.read.workload.terminating
    requires Finalizer in c.read.workload.finalizers
    requires forall i :: 0 <= i < |c.pods.value| ==> Live(c.pods.value[i])
    requires AdoptionsAccepted(c.pods.value, c.accepts)
    requires c.poolFound && k.templateHash == Some(c.read.workload.status.podTemplateHash)
    requires AllCurrent(c.pods.value, c.read.workload.status.podTemplateHash)
    requires c.read.workload.status.replicas == |c.pods.value| == DesiredReplicas(c.read.workload.spec)
    requires Computed(c.read.workload, AdoptedPods(c.pods.value, k), k) == Some(c.read.workload.status)
    ensures Reconcile(c, k).outcome == Done
    ensures Adoptions(c.pods.value) <= Reconcile(c, k).effects
    ensures forall i :: |Adoptions(c.pods.value)| <= i < |Reconcile(c, k).effects| ==>
      Reconcile(c, k).effects[i] == Warning(WorkerFailedEvent)
  {
    var held := AdoptedPods(c.pods.value, k);
    LiveCycleProvisions(c, k);
    AdoptedStillCurrent(c.pods.value, k, c.read.workload.status.podTemplateHash);
    SteadyProvisionIsQuiet(c.read.workload, held, c, k);
    PrependWarnings(Adoptions(c.pods.value), Provision(c.read.workload, held, c, k));
  }

  /** In the steady state the provisioning stage succeeds and issues
      nothing but the worker-failure warning. */
  lemma SteadyProvisionIsQuiet(w: Workload, pods: seq<Pod>, c: Cluster, k: Collaborators)
    requires !w.terminating && c.poolFound && k.templateHash == Some(w.status.podTemplateHash)
    requires AllCurrent(pods, w.status.podTemplateHash)
    requires w.status.replicas == |pods| == DesiredReplicas(w.spec)
    requires Computed(w, pods, k) == Some(w.status)
    ensures Provision(w, pods, c, k).outcome == Done
    ensures forall i :: 0 <= i < |Provision(w, pods, c, k).effects| ==>
      Provision(w, pods, c, k).effects[i] == Warning(WorkerFailedEvent)
  {
    SteadyScalingIsQuiet(w, pods, w.status.podTemplateHash, k, c.accepts);
    assert Provision(w, pods, c, k) == UpdateStatus(w, pods, k, c.accepts);
    UpdateStatusWrites(w, pods, k, c.accepts);
  }

  /** Prepending effects to a step that only warns keeps them first and
      only warnings after them. */
  lemma PrependWarnings(pre: seq<Effect>, s: Step)
    requires forall i :: 0 <= i < |s.effects| ==> s.effects[i] == Warning(WorkerFailedEvent)
    ensures pre <= Prepend(pre, s).effects
    ensures forall i :: |pre| <= i < |Prepend(pre, s).effects| ==> Prepend(pre, s).effects[i] == Warning(WorkerFailedEvent)
  {
    assert forall i :: |pre| <= i < |Prepend(pre, s).effects| ==> Prepend(pre, s).effects[i] == s.effects[i - |pre|];
  }

  /** In the steady state, rolling and scaling do nothing and the cycle
      goes on to publish status. */
  lemma SteadyScalingIsQuiet(w: Workload, pods: seq<Pod>, hash: string, k: Collaborators, accepts: Effect -> bool)
    requires AllCurrent(pods, hash) && w.status.replicas == |pods| == DesiredReplicas(w.spec)
    ensures Converge(w, pods, hash, k, accepts) == UpdateStatus(w, pods, k, accepts)
  {
    assert WithReplicas(w, |pods|) == w;
    ScalingAfterRoll(w, pods, hash, k, accepts);
    ScaleTowardsSteady(w, pods, hash, k, accepts);
    assert ReconcileScaling(w, pods, hash, k, accepts) == Scaled(Step([], Done), w, pods);
    assert [] + UpdateStatus(w, pods, k, accepts).effects == UpdateStatus(w, pods, k, accepts).effects;
  }

  /** The cycle's early exits: a missing workload ends it quietly, a
      failed read or pod listing ends it with an error before anything is
      issued, and a live cycle stops at a missing pool or an unavailable
      template hash, in that order, issuing nothing beyond the pods'
      finalizer updates. */
  lemma ReconcileGates(c: Cluster, k: Collaborators)
    ensures c.read.NotFound? ==> Reconcile(c, k) == Step([], Done)
    ensures c.read.ReadFailed? ==> Reconcile(c, k) == Step([], Error(ReadWorkloadFailed))
    ensures c.read.Found? && c.pods.None? ==> Reconcile(c, k) == Step([], Error(ListPodsFailed))
    ensures (&& c.read.Found? && c.pods.Some? && !c.read.workload.terminating
             && Finalizer in c.read.workload.finalizers
             && (forall i :: 0 <= i < |c.pods.value| ==> Live(c.pods.value[i]))
             && AdoptionsAccepted(c.pods.value, c.accepts)) ==>
      && (!c.poolFound ==>
            Reconcile(c, k) == Step(Adoptions(c.pods.value), Error(PoolMissing(c.read.workload.spec.poolName))))
      && (c.poolFound && k.templateHash.None? ==>
            Reconcile(c, k) == Step(Adoptions(c.pods.value), Error(TemplateHashFailed)))
  {
    if && c.read.Found? && c.pods.Some? && !c.read.workload.terminating
       && Finalizer in c.read.workload.finalizers
       && (forall i :: 0 <= i < |c.pods.value| ==> Live(c.pods.value[i])) {
      LiveCycleProvisions(c, k);
      assert Adoptions(c.pods.value) + [] == Adoptions(c.pods.value);
    }
  }
}

=== FILE: scaling.dfy ===
/** Rolling and scaling (`reconcileScaling`, `scaleUpWorkers`,
    `scaleDownWorkers`): pods whose template hash is stale are deleted
    first; otherwise the pod count is moved towards the desired replicas by
    launching workers or deleting the oldest ones. */
module Scaling {
  import opened Wrappers
  import opened Types
  import opened Launcher

  /** The pods whose `podTemplateHash` label (empty when missing) differs
      from `hash`, in list order. */
  function Outdated(pods: seq<Pod>, hash: string): (r: seq<Pod>)
    ensures forall p :: p in r <==> p in pods && Get(p.labels, TemplateHashLabel) != hash
    ensures |r| == 0 <==> forall i :: 0 <= i < |pods| ==> Get(pods[i].labels, TemplateHashLabel) == hash
    ensures multiset(r) <= multiset(pods)
  {
    if |pods| == 0 then []
    else
      assert pods == [pods[0]] + pods[1..];
      (if Get(pods[0].labels, TemplateHashLabel) != hash then [pods[0]] else [])
      + Outdated(pods[1..], hash)
  }

  /** `Spec.Replicas`, defaulting to one. */
  function DesiredReplicas(spec: WorkloadSpec): int
  {
    spec.replicas.GetOr(1)
  }

  predicate SortedByCreation(s: seq<Pod>)
  {
    forall i, j :: 0 <= i < j < |s| ==> s[i].created <= s[j].created
  }

  function Insert(p: Pod, s: seq<Pod>): (r: seq<Pod>)
    requires SortedByCreation(s)
    ensures SortedByCreation(r)
    ensures |r| == |s| + 1
    ensures r[0] == p || (|s| > 0 && r[0] == s[0])
    ensures multiset(r) == multiset(s) + multiset{p}
  {
    if |s| == 0 then [p]
    else if p.created <= s[0].created then [p] + s
    else
      assert s == [s[0]] + s[1..];
      [s[0]] + Insert(p, s[1..])
  }

  /** The pods ordered by creation time, oldest first, pods created at the
      same instant kept in list order: one ordering by creation time that
      always exists. */
  function SortByCreation(pods: seq<Pod>): (r: seq<Pod>)
    ensures SortedByCreation(r)
    ensures multiset(r) == multiset(pods)
    ensures |r| == |pods|
  {
    if |pods| == 0 then []
    else
      assert pods == [pods[0]] + pods[1..];
      Insert(pods[0], SortByCreation(pods[1..]))
  }

  /** `r` orders the pods by creation time, oldest first. */
  predicate SortsByCreation(r: seq<Pod>, pods: seq<Pod>)
  {
    SortedByCreation(r) && multiset(r) == multiset(pods)
  }

  /** The order `sort.Slice` leaves `podList.Items` in. The sort is not
      stable and creation times have a coarse granularity, so pods created
      at the same instant may end up in any order: the collaborators'
      `arrange` picks it, and an answer that does not order the pods by
      creation time is replaced by the stable ordering. */
  function CreationOrder(pods: seq<Pod>, k: Collaborators): (r: seq<Pod>)
    ensures SortsByCreation(r, pods) && |r| == |pods|
    ensures SortsByCreation(k.arrange(pods), pods) ==> r == k.arrange(pods)
  {
    if SortsByCreation(k.arrange(pods), pods) then
      assert |k.arrange(pods)| == |multiset(k.arrange(pods))| == |multiset(pods)| == |pods|;
      k.arrange(pods)
    else SortByCreation(pods)
  }

  /** One `DeletePod` per pod, in order. */
  function Deletions(pods: seq<Pod>): (es: seq<Effect>)
    ensures |es| == |pods|
    ensures forall i :: 0 <= i < |pods| ==> es[i] == DeletePod(pods[i].name)
  {
    if |pods| == 0 then [] else [DeletePod(pods[0].name)] + Deletions(pods[1..])
  }

  /** `scaleDownWorkers(pods)`: delete each pod in turn, stopping at the
      first refused deletion. */
  function ScaleDown(pods: seq<Pod>, accepts: Effect -> bool): (r: Step)
    ensures r.outcome == Done || r.outcome == Error(DeletePodFailed)
    ensures |r.effects| <= |pods|
    ensures r.effects == Deletions(pods)[..|r.effects|]
  {
    if |pods| == 0 then Step([], Done)
    else
      var d := DeletePod(pods[0].name);
      if !accepts(d) then Step([d], Error(DeletePodFailed))
      else Prepend([d], ScaleDown(pods[1..], accepts))
  }

  /** Scaling down deletes every pod, in order, exactly when every deletion
      is accepted. */
  lemma {:induction false} ScaleDownCompletes(pods: seq<Pod>, accepts: Effect -> bool)
    ensures ScaleDown(pods, accepts).outcome == Done
        <==> forall i :: 0 <= i < |pods| ==> accepts(DeletePod(pods[i].name))
    ensures ScaleDown(pods, accepts).outcome == Done ==> ScaleDown(pods, accepts).effects == Deletions(pods)
  {
    if |pods| > 0 && accepts(DeletePod(pods[0].name)) {
      ScaleDownCompletes(pods[1..], accepts);
      assert forall i :: 1 <= i < |pods| ==> pods[i] == pods[1..][i - 1];
      assert Deletions(pods) == [DeletePod(pods[0].name)] + Deletions(pods[1..]);
    }
  }

  /** A scale-down that fails stops at the first refused deletion, every
      deletion before it having been accepted. */
  lemma {:induction false} ScaleDownStops(pods: seq<Pod>, accepts: Effect -> bool)
    requires ScaleDown(pods, accepts).outcome.Error?
    ensures |ScaleDown(pods, accepts).effects| >= 1
    ensures !accepts(ScaleDown(pods, accepts).effects[|ScaleDown(pods, accepts).effects| - 1])
    ensures forall i :: 0 <= i < |ScaleDown(pods, accepts).effects| - 1 ==> accepts(ScaleDown(pods, accepts).effects[i])
  {
    var d := DeletePod(pods[0].name);
    if accepts(d) {
      var rest := ScaleDown(pods[1..], accepts).effects;
      ScaleDownStops(pods[1..], accepts);
      assert ScaleDown(pods, accepts).effects == [d] + rest;
      AcceptedBefore(d, rest, accepts);
    }
  }

  /** An accepted effect put in front of a run that stopped at its last
      effect keeps that shape. */
  lemma AcceptedBefore(d: Effect, rest: seq<Effect>, accepts: Effect -> bool)
    requires accepts(d) && |rest| >= 1 && !accepts(rest[|rest| - 1])
    requires forall i :: 0 <= i < |rest| - 1 ==> accepts(rest[i])
    ensures !accepts(([d] + rest)[|[d] + rest| - 1])
    ensures forall i :: 0 <= i < |[d] + rest| - 1 ==> accepts(([d] + rest)[i])
  {
    assert forall i :: 1 <= i < |[d] + rest| ==> ([d] + rest)[i] == rest[i - 1];
  }

  /** The allocation request made for each new worker. */
  function AllocRequestOf(w: Workload): AllocRequest
  {
    AllocRequest(w.spec.poolName, OwnerOf(w), w.spec.resources.requests,
                 w.spec.gpuCount, w.spec.gpuModel, w.spec.nodeAffinity)
  }

  /** Iteration `i` of `scaleUpWorkers`: allocate GPUs, then launch a
      worker on them. A refused allocation gives a warning and a delayed
      requeue; a failed launch gives back this iteration's GPUs and an
      error; `Done` means a worker was launched. */
  function Attempt(w: Workload, hash: string, i: nat, k: Collaborators, accepts: Effect -> bool): (r: Step)
    ensures |r.effects| > 0 && r.effects[0] == Alloc(AllocRequestOf(w))
    ensures r.outcome == RequeueAfter <==> k.alloc(i).None?
    ensures r.outcome == Done || r.outcome == RequeueAfter || (r.outcome.Error? && r.outcome.failure.ScaleUpFailed?)
  {
    var alloc := Alloc(AllocRequestOf(w));
    match k.alloc(i)
    case None => Step([alloc, Warning(ScheduleGpuFailedEvent)], RequeueAfter)
    case Some(gpus) =>
      AfterLaunch(w, gpus, TryStartWorker(gpus, w, hash, i, k, accepts))
  }

  /** The rest of an iteration once `tryStartWorker` on `gpus` returned
      `l`: a failed launch gives the GPUs back. */
  function AfterLaunch(w: Workload, gpus: seq<Gpu>, l: Launch): Step
  {
    var alloc := Alloc(AllocRequestOf(w));
    if l.LaunchFailed? then
      Step([alloc] + l.effects + [Dealloc(OwnerOf(w), w.spec.resources.requests, GpuKeys(gpus))],
           Error(ScaleUpFailed(l.cause)))
    else Step([alloc] + l.effects, Done)
  }

  /** Runs `step(i)`, `step(i + 1)`, ... up to (not including) `count`,
      ending at the first step whose outcome is not `Done` and returning
      that step's outcome; the effects of the steps run are concatenated. */
  function Sequence(step: nat -> Step, i: nat, count: nat): Step
    requires i <= count
    decreases count - i
  {
    if i == count then Step([], Done)
    else
      var a := step(i);
      if a.outcome != Done then a
      else Prepend(a.effects, Sequence(step, i + 1, count))
  }

  /** `scaleUpWorkers(count)`: `count` iterations of `Attempt`, stopping at
      the first that does not launch a worker. */
  function ScaleUp(w: Workload, hash: string, count: nat, k: Collaborators, accepts: Effect -> bool): (r: Step)
    ensures count == 0 ==> r == Step([], Done)
    ensures count > 0 ==> |r.effects| > 0 && r.effects[0] == Alloc(AllocRequestOf(w))
  {
    Sequence(Attempts(w, hash, k, accepts), 0, count)
  }

  /** The iterations of `scaleUpWorkers`, by number. */
  function Attempts(w: Workload, hash: string, k: Collaborators, accepts: Effect -> bool): nat -> Step
  {
    (j: nat) => Attempt(w, hash, j, k, accepts)
  }

  /** A launch issues nothing but a port request and a creation. */
  lemma LaunchLacks(gpus: seq<Gpu>, w: Workload, hash: string, attempt: nat, k: Collaborators, accepts: Effect -> bool,
                    kind: Kind)
    requires kind != KAssignPort && kind != KCreate
    ensures Count(TryStartWorker(gpus, w, hash, attempt, k, accepts).effects, kind) == 0
  {
    var e := TryStartWorker(gpus, w, hash, attempt, k, accepts).effects;
    assert forall i :: 0 <= i < |e| ==> KindOf(e[i]) in {KAssignPort, KCreate};
    CountZero(e, kind);
  }

  /** A launch that succeeded created one pod. */
  lemma LaunchCreates(gpus: seq<Gpu>, w: Workload, hash: string, attempt: nat, k: Collaborators, accepts: Effect -> bool)
    requires TryStartWorker(gpus, w, hash, attempt, k, accepts).Launched?
    ensures Count(TryStartWorker(gpus, w, hash, attempt, k, accepts).effects, KCreate) == 1
  {
    var l := TryStartWorker(gpus, w, hash, attempt, k, accepts);
    assert l.effects == [l.effects[0]] + [l.effects[1]];
    CountAppend([l.effects[0]], [l.effects[1]], KCreate);
  }

  /** A launch creates at most one pod. */
  lemma LaunchCreatesAtMostOne(gpus: seq<Gpu>, w: Workload, hash: string, attempt: nat, k: Collaborators, accepts: Effect -> bool)
    ensures Count(TryStartWorker(gpus, w, hash, attempt, k, accepts).effects, KCreate) <= 1
  {
    var e := TryStartWorker(gpus, w, hash, attempt, k, accepts).effects;
    if |e| == 2 {
      assert e == [e[0]] + [e[1]];
      CountAppend([e[0]], [e[1]], KCreate);
    } else if |e| == 1 {
      assert e[1..] == [];
    }
  }

  /** How many effects of each kind an iteration issues: its allocation
      request, then the warning or the launch's effects, then the
      `Dealloc` of a failed launch. */
  lemma AttemptCount(w: Workload, hash: string, i: nat, k: Collaborators, accepts: Effect -> bool, kind: Kind)
    ensures k.alloc(i).None? ==>
      Count(Attempt(w, hash, i, k, accepts).effects, kind)
      == (if kind == KAlloc then 1 else 0) + (if kind == KWarning then 1 else 0)
    ensures k.alloc(i).Some? ==>
      Count(Attempt(w, hash, i, k, accepts).effects, kind)
      == (if kind == KAlloc then 1 else 0)
       + Count(TryStartWorker(k.alloc(i).value, w, hash, i, k, accepts).effects, kind)
       + (if TryStartWorker(k.alloc(i).value, w, hash, i, k, accepts).LaunchFailed? && kind == KDealloc then 1 else 0)
  {
    if k.alloc(i).None? {
      AttemptCountRefused(w, hash, i, k, accepts, kind);
    } else {
      AttemptCountLaunch(w, hash, i, k, accepts, kind);
    }
  }

  lemma AttemptCountRefused(w: Workload, hash: string, i: nat, k: Collaborators, accepts: Effect -> bool, kind: Kind)
    requires k.alloc(i).None?
    ensures Count(Attempt(w, hash, i, k, accepts).effects, kind)
         == (if kind == KAlloc then 1 else 0) + (if kind == KWarning then 1 else 0)
  {
    var alloc := Alloc(AllocRequestOf(w));
    var warn := Warning(ScheduleGpuFailedEvent);
    assert Attempt(w, hash, i, k, accepts).effects == [alloc] + [warn];
    CountSingle(alloc, kind);
    CountSnoc([alloc], warn, kind);
  }

  lemma AttemptCountLaunch(w: Workload, hash: string, i: nat, k: Collaborators, accepts: Effect -> bool, kind: Kind)
    requires k.alloc(i).Some?
    ensures Count(Attempt(w, hash, i, k, accepts).effects, kind)
         == (if kind == KAlloc then 1 else 0)
          + Count(TryStartWorker(k.alloc(i).value, w, hash, i, k, accepts).effects, kind)
          + (if TryStartWorker(k.alloc(i).value, w, hash, i, k, accepts).LaunchFailed? && kind == KDealloc then 1 else 0)
  {
    AfterLaunchCount(w, k.alloc(i).value, TryStartWorker(k.alloc(i).value, w, hash, i, k, accepts), kind);
  }

  lemma AfterLaunchCount(w: Workload, gpus: seq<Gpu>, l: Launch, kind: Kind)
    ensures Count(AfterLaunch(w, gpus, l).effects, kind)
         == (if kind == KAlloc then 1 else 0) + Count(l.effects, kind)
          + (if l.LaunchFailed? && kind == KDealloc then 1 else 0)
  {
    var alloc := Alloc(AllocRequestOf(w));
    var tail := if l.LaunchFailed? then [Dealloc(OwnerOf(w), w.spec.resources.requests, GpuKeys(gpus))] else [];
    assert AfterLaunch(w, gpus, l).effects == ([alloc] + l.effects) + tail;
    CountFront(AfterLaunch(w, gpus, l).effects, alloc, l.effects, tail, kind);
  }

  /** Counting over a single effect, a middle part and at most one more. */
  lemma CountFront(e: seq<Effect>, a: Effect, mid: seq<Effect>, tail: seq<Effect>, kind: Kind)
    requires |tail| <= 1 && e == ([a] + mid) + tail
    ensures Count(e, kind)
         == (if KindOf(a) == kind then 1 else 0) + Count(mid, kind)
          + (if |tail| == 1 && KindOf(tail[0]) == kind then 1 else 0)
  {
    CountSingle(a, kind);
    CountAppend([a], mid, kind);
    CountAppend([a] + mid, tail, kind);
    if |tail| == 1 {
      CountSingle(tail[0], kind);
      assert tail == [tail[0]];
    }
  }

  /** An iteration creates at most one pod. */
  lemma AttemptCreatesAtMostOne(w: Workload, hash: string, i: nat, k: Collaborators, accepts: Effect -> bool)
    ensures Count(Attempt(w, hash, i, k, accepts).effects, KCreate) <= 1
  {
    AttemptCount(w, hash, i, k, accepts, KCreate);
    if k.alloc(i).Some? {
      LaunchCreatesAtMostOne(k.alloc(i).value, w, hash, i, k, accepts);
    }
  }

  /** An iteration issues nothing but an allocation request, a warning,
      the launch's effects and a `Dealloc`. */
  lemma AttemptLacks(w: Workload, hash: string, i: nat, k: Collaborators, accepts: Effect -> bool, kind: Kind)
    requires kind != KAlloc && kind != KWarning && kind != KAssignPort && kind != KCreate && kind != KDealloc
    ensures Count(Attempt(w, hash, i, k, accepts).effects, kind) == 0
  {
    AttemptCount(w, hash, i, k, accepts, kind);
    if k.alloc(i).Some? {
      LaunchLacks(k.alloc(i).value, w, hash, i, k, accepts, kind);
    }
  }

  /** One iteration makes exactly one allocation request, deletes nothing
      and writes no status; it either launches a worker or stops the loop,
      with a delayed requeue exactly when the allocator refused. */
  lemma AttemptShape(w: Workload, hash: string, i: nat, k: Collaborators, accepts: Effect -> bool)
    ensures Count(Attempt(w, hash, i, k, accepts).effects, KAlloc) == 1
    ensures Count(Attempt(w, hash, i, k, accepts).effects, KDelete) == 0
    ensures Count(Attempt(w, hash, i, k, accepts).effects, KWriteStatus) == 0
    ensures Attempt(w, hash, i, k, accepts).outcome == Done
         || Attempt(w, hash, i, k, accepts).outcome == RequeueAfter
         || (Attempt(w, hash, i, k, accepts).outcome.Error?
             && Attempt(w, hash, i, k, accepts).outcome.failure.ScaleUpFailed?)
    ensures Attempt(w, hash, i, k, accepts).outcome == RequeueAfter <==> k.alloc(i).None?
  {
    AttemptLacks(w, hash, i, k, accepts, KDelete);
    AttemptLacks(w, hash, i, k, accepts, KWriteStatus);
    AttemptCount(w, hash, i, k, accepts, KAlloc);
    if k.alloc(i).Some? {
      LaunchLacks(k.alloc(i).value, w, hash, i, k, accepts, KAlloc);
    }
  }

  /** An iteration that launched a worker created one pod and gave nothing
      back. */
  lemma AttemptLaunched(w: Workload, hash: string, i: nat, k: Collaborators, accepts: Effect -> bool)
    requires Attempt(w, hash, i, k, accepts).outcome == Done
    ensures Count(Attempt(w, hash, i, k, accepts).effects, KCreate) == 1
    ensures Count(Attempt(w, hash, i, k, accepts).effects, KDealloc) == 0
  {
    var gpus := k.alloc(i).value;
    AttemptCount(w, hash, i, k, accepts, KCreate);
    AttemptCount(w, hash, i, k, accepts, KDealloc);
    LaunchCreates(gpus, w, hash, i, k, accepts);
    LaunchLacks(gpus, w, hash, i, k, accepts, KDealloc);
  }

  /** An iteration whose allocation was refused leaves a warning and gives
      nothing back. */
  lemma AttemptRefused(w: Workload, hash: string, i: nat, k: Collaborators, accepts: Effect -> bool)
    requires k.alloc(i).None?
    ensures Count(Attempt(w, hash, i, k, accepts).effects, KDealloc) == 0
    ensures Attempt(w, hash, i, k, accepts).effects[|Attempt(w, hash, i, k, accepts).effects| - 1]
         == Warning(ScheduleGpuFailedEvent)
  {
    AttemptCount(w, hash, i, k, accepts, KDealloc);
  }

  /** An iteration whose launch failed gives back exactly the GPUs it was
      allocated, once, as its last effect. */
  lemma AttemptLaunchFailed(w: Workload, hash: string, i: nat, k: Collaborators, accepts: Effect -> bool)
    requires Attempt(w, hash, i, k, accepts).outcome.Error?
    ensures k.alloc(i).Some?
    ensures Count(Attempt(w, hash, i, k, accepts).effects, KDealloc) == 1
    ensures Attempt(w, hash, i, k, accepts).effects[|Attempt(w, hash, i, k, accepts).effects| - 1]
         == Dealloc(OwnerOf(w), w.spec.resources.requests, GpuKeys(k.alloc(i).value))
  {
    var gpus := k.alloc(i).value;
    AttemptCount(w, hash, i, k, accepts, KDealloc);
    LaunchLacks(gpus, w, hash, i, k, accepts, KDealloc);
  }

  /** An iteration whose port request is refused gives back its GPUs and
      fails with the port error. The port allocator answers each iteration
      afresh, so this holds whatever earlier iterations were given on the
      same node. */
  lemma AttemptPortRefused(w: Workload, hash: string, i: nat, k: Collaborators, accepts: Effect -> bool)
    requires k.alloc(i).Some? && |k.alloc(i).value| > 0 && k.alloc(i).value[0].labels.Some?
    requires k.assignPort(i, FirstNode(k.alloc(i).value)).None?
    ensures Attempt(w, hash, i, k, accepts)
      == Step([Alloc(AllocRequestOf(w)), AssignHostPort(FirstNode(k.alloc(i).value)),
               Dealloc(OwnerOf(w), w.spec.resources.requests, GpuKeys(k.alloc(i).value))],
              Error(ScaleUpFailed(HostPortFailed)))
    ensures Count(Attempt(w, hash, i, k, accepts).effects, KCreate) == 0
    ensures Count(Attempt(w, hash, i, k, accepts).effects, KDealloc) == 1
  {
    var gpus := k.alloc(i).value;
    AttemptCount(w, hash, i, k, accepts, KCreate);
    AttemptCount(w, hash, i, k, accepts, KDealloc);
    assert TryStartWorker(gpus, w, hash, i, k, accepts).effects == [AssignHostPort(FirstNode(gpus))];
    CountSingle(AssignHostPort(FirstNode(gpus)), KCreate);
    CountSingle(AssignHostPort(FirstNode(gpus)), KDealloc);
  }

  /** Host ports can run out part-way through a scale-up: after a first
      worker is launched, a refused port for the second ends the scale-up
      with the port error, one worker created and only the second
      iteration's GPUs given back. */
  lemma PortExhaustedMidway(w: Workload, hash: string, k: Collaborators, accepts: Effect -> bool)
    requires Attempt(w, hash, 0, k, accepts).outcome == Done
    requires k.alloc(1).Some? && |k.alloc(1).value| > 0 && k.alloc(1).value[0].labels.Some?
    requires k.assignPort(1, FirstNode(k.alloc(1).value)).None?
    ensures ScaleUp(w, hash, 2, k, accepts).outcome == Error(ScaleUpFailed(HostPortFailed))
    ensures Count(ScaleUp(w, hash, 2, k, accepts).effects, KCreate) == 1
    ensures Count(ScaleUp(w, hash, 2, k, accepts).effects, KDealloc) == 1
  {
    var step := Attempts(w, hash, k, accepts);
    var first := step(0);
    var second := step(1);
    AttemptPortRefused(w, hash, 1, k, accepts);
    AttemptLaunched(w, hash, 0, k, accepts);
    SequenceUnfolds(step, 0, 2);
    SequenceUnfolds(step, 1, 2);
    var r := Sequence(step, 0, 2);
    assert r == Step(first.effects + second.effects, second.outcome);
    CountAppend(first.effects, second.effects, KCreate);
    CountAppend(first.effects, second.effects, KDealloc);
  }

  /** What the loop relies on about one step: it makes one allocation
      request, deletes nothing, writes no status and creates at most one
      pod, and if it lets the loop continue it created one pod and gave
      nothing back. */
  predicate AllocatesOnce(a: Step)
  {
    && Count(a.effects, KAlloc) == 1
    && Count(a.effects, KDelete) == 0
    && Count(a.effects, KWriteStatus) == 0
    && Count(a.effects, KCreate) <= 1
    && (a.outcome == Done ==> Count(a.effects, KCreate) == 1 && Count(a.effects, KDealloc) == 0)
  }

  ghost predicate StepsAllocateOnce(step: nat -> Step)
  {
    forall j: nat :: AllocatesOnce(step(j))
  }

  /** What a run of the loop over `n` steps issues. */
  predicate LoopCounts(r: Step, n: nat)
  {
    && Count(r.effects, KAlloc) <= n
    && Count(r.effects, KCreate) <= Count(r.effects, KAlloc)
    && Count(r.effects, KDelete) == 0 && Count(r.effects, KWriteStatus) == 0
    && (r.outcome == Done ==>
          Count(r.effects, KAlloc) == n && Count(r.effects, KCreate) == n && Count(r.effects, KDealloc) == 0)
    && (r.outcome != Done ==> Count(r.effects, KAlloc) >= 1)
  }

  /** A step that continues, followed by a run over `n` steps, is a run
      over `n + 1` steps. */
  lemma LoopCountsStep(a: Step, rest: Step, n: nat)
    requires AllocatesOnce(a) && a.outcome == Done && LoopCounts(rest, n)
    ensures LoopCounts(Step(a.effects + rest.effects, rest.outcome), n + 1)
  {
    CountAppend(a.effects, rest.effects, KAlloc);
    CountAppend(a.effects, rest.effects, KDelete);
    CountAppend(a.effects, rest.effects, KWriteStatus);
    CountAppend(a.effects, rest.effects, KCreate);
    CountAppend(a.effects, rest.effects, KDealloc);
  }

  lemma {:induction false} SequenceCounts(step: nat -> Step, i: nat, count: nat)
    requires i <= count
    requires StepsAllocateOnce(step)
    decreases count - i
    ensures LoopCounts(Sequence(step, i, count), count - i)
  {
    if i < count {
      var a := step(i);
      assert AllocatesOnce(a);
      if a.outcome == Done {
        var rest := Sequence(step, i + 1, count);
        SequenceCounts(step, i + 1, count);
        assert Sequence(step, i, count) == Step(a.effects + rest.effects, rest.outcome);
        LoopCountsStep(a, rest, count - i - 1);
      } else {
        assert Sequence(step, i, count) == a;
      }
    }
  }

  /** `r` ends as `a` does: with its outcome and its last effect, and with
      its `Dealloc`s. */
  predicate EndsAs(r: Step, a: Step)
  {
    && r.outcome == a.outcome
    && |r.effects| >= 1 && |a.effects| >= 1
    && r.effects[|r.effects| - 1] == a.effects[|a.effects| - 1]
    && Count(r.effects, KDealloc) == Count(a.effects, KDealloc)
  }

  /** A step that continues, put in front of a run that stopped, adds one
      allocation and keeps how the run ends. */
  lemma EndsAsAfter(a: Step, rest: Step, last: Step)
    requires AllocatesOnce(a) && a.outcome == Done && EndsAs(rest, last)
    ensures Count(a.effects + rest.effects, KAlloc) == Count(rest.effects, KAlloc) + 1
    ensures EndsAs(Step(a.effects + rest.effects, rest.outcome), last)
  {
    CountAppend(a.effects, rest.effects, KAlloc);
    CountAppend(a.effects, rest.effects, KDealloc);
  }

  /** A loop that stops early was stopped by step `i + Count(KAlloc) - 1`,
      and ends as that step does. */
  lemma {:induction false} SequenceStopsAt(step: nat -> Step, i: nat, count: nat)
    requires i <= count
    requires StepsAllocateOnce(step)
    requires Sequence(step, i, count).outcome != Done
    decreases count - i
    ensures i <= i + Count(Sequence(step, i, count).effects, KAlloc) - 1 < count
    ensures EndsAs(Sequence(step, i, count), step(i + Count(Sequence(step, i, count).effects, KAlloc) - 1))
  {
    var a := step(i);
    var r := Sequence(step, i, count);
    SequenceUnfolds(step, i, count);
    assert AllocatesOnce(a);
    if a.outcome == Done {
      var rest := Sequence(step, i + 1, count);
      SequenceStopsAt(step, i + 1, count);
      var j := i + 1 + Count(rest.effects, KAlloc) - 1;
      EndsAsAfter(a, rest, step(j));
    }
  }

  /** One step of the loop: a step that continues is followed by the rest
      of the loop, and one that does not ends it. */
  lemma SequenceUnfolds(step: nat -> Step, i: nat, count: nat)
    requires i < count
    ensures step(i).outcome != Done ==> Sequence(step, i, count) == step(i)
    ensures step(i).outcome == Done ==>
      Sequence(step, i, count) == Step(step(i).effects + Sequence(step, i + 1, count).effects,
                                       Sequence(step, i + 1, count).outcome)
  {
  }

  lemma AttemptsAllocateOnce(w: Workload, hash: string, k: Collaborators, accepts: Effect -> bool)
    ensures StepsAllocateOnce(Attempts(w, hash, k, accepts))
  {
    forall j: nat
      ensures AllocatesOnce(Attempt(w, hash, j, k, accepts))
    {
      AttemptShape(w, hash, j, k, accepts);
      AttemptCreatesAtMostOne(w, hash, j, k, accepts);
      if Attempt(w, hash, j, k, accepts).outcome == Done {
        AttemptLaunched(w, hash, j, k, accepts);
      }
    }
  }

  /** The shape of the scale-up loop's work: at most `count` allocations
      are attempted and no pod is deleted; when every iteration succeeds,
      one worker is created per allocation and nothing is given back. */
  lemma ScaleUpCounts(w: Workload, hash: string, count: nat, k: Collaborators, accepts: Effect -> bool)
    ensures var r := ScaleUp(w, hash, count, k, accepts);
      && Count(r.effects, KAlloc) <= count
      && Count(r.effects, KCreate) <= Count(r.effects, KAlloc)
      && Count(r.effects, KDelete) == 0 && Count(r.effects, KWriteStatus) == 0
      && (r.outcome == Done ==>
            Count(r.effects, KAlloc) == count && Count(r.effects, KCreate) == count
            && Count(r.effects, KDealloc) == 0)
  {
    AttemptsAllocateOnce(w, hash, k, accepts);
    SequenceCounts(Attempts(w, hash, k, accepts), 0, count);
  }

  /** An iteration that does not launch a worker either was refused GPUs
      (a warning, a delayed requeue, nothing given back) or failed to launch
      (an error, and its GPUs given back as its last effect). */
  lemma AttemptStops(w: Workload, hash: string, j: nat, k: Collaborators, accepts: Effect -> bool)
    requires Attempt(w, hash, j, k, accepts).outcome != Done
    ensures var a := Attempt(w, hash, j, k, accepts);
      && (a.outcome == RequeueAfter || (a.outcome.Error? && a.outcome.failure.ScaleUpFailed?))
      && (a.outcome == RequeueAfter <==> k.alloc(j).None?)
      && (a.outcome == RequeueAfter ==>
            Count(a.effects, KDealloc) == 0
            && a.effects[|a.effects| - 1] == Warning(ScheduleGpuFailedEvent))
      && (a.outcome.Error? ==>
            Count(a.effects, KDealloc) == 1
            && a.effects[|a.effects| - 1]
               == Dealloc(OwnerOf(w), w.spec.resources.requests, GpuKeys(k.alloc(j).value)))
  {
    AttemptShape(w, hash, j, k, accepts);
    if k.alloc(j).None? {
      AttemptRefused(w, hash, j, k, accepts);
    } else {
      AttemptLaunchFailed(w, hash, j, k, accepts);
    }
  }

  /** How the scale-up loop stops early: the stopping attempt, number `j`,
      is the last one made, and the loop ends as it does (its outcome, its
      last effect and its `Dealloc`s; see `AttemptStops`). A failed launch's
      `Dealloc` is thus the only one of the loop, so workers created by
      earlier attempts are never rolled back. */
  lemma ScaleUpStops(w: Workload, hash: string, count: nat, k: Collaborators, accepts: Effect -> bool)
    requires ScaleUp(w, hash, count, k, accepts).outcome != Done
    ensures 0 <= Count(ScaleUp(w, hash, count, k, accepts).effects, KAlloc) - 1 < count
    ensures EndsAs(ScaleUp(w, hash, count, k, accepts),
                   Attempt(w, hash, Count(ScaleUp(w, hash, count, k, accepts).effects, KAlloc) - 1, k, accepts))
  {
    var r := ScaleUp(w, hash, count, k, accepts);
    var j := AttemptsStopAt(w, hash, count, k, accepts, r);
    AttemptEndsAs(w, hash, count, k, accepts, j);
    ScaleUpStopsAt(w, hash, count, k, accepts, j);
  }

  /** `ScaleUpStops` once the stopping iteration `j` is known. */
  lemma ScaleUpStopsAt(w: Workload, hash: string, count: nat, k: Collaborators, accepts: Effect -> bool, j: nat)
    requires j == Count(ScaleUp(w, hash, count, k, accepts).effects, KAlloc) - 1 && j < count
    requires EndsAs(ScaleUp(w, hash, count, k, accepts), Attempt(w, hash, j, k, accepts))
    ensures 0 <= Count(ScaleUp(w, hash, count, k, accepts).effects, KAlloc) - 1 < count
    ensures EndsAs(ScaleUp(w, hash, count, k, accepts),
                   Attempt(w, hash, Count(ScaleUp(w, hash, count, k, accepts).effects, KAlloc) - 1, k, accepts))
  {
  }

  /** `StopsAt` for the iterations of `scaleUpWorkers`. */
  lemma AttemptsStopAt(w: Workload, hash: string, count: nat, k: Collaborators, accepts: Effect -> bool, r: Step)
    returns (j: nat)
    requires r == Sequence(Attempts(w, hash, k, accepts), 0, count) && r.outcome != Done
    ensures j == Count(r.effects, KAlloc) - 1 && j < count && EndsAs(r, Attempts(w, hash, k, accepts)(j))
  {
    AttemptsAllocateOnce(w, hash, k, accepts);
    j := StopsAt(Attempts(w, hash, k, accepts), count, r);
  }

  /** An `EndsAs` against iteration `j` of the loop, restated on `ScaleUp`. */
  lemma AttemptEndsAs(w: Workload, hash: string, count: nat, k: Collaborators, accepts: Effect -> bool, j: nat)
    requires EndsAs(Sequence(Attempts(w, hash, k, accepts), 0, count), Attempts(w, hash, k, accepts)(j))
    ensures EndsAs(ScaleUp(w, hash, count, k, accepts), Attempt(w, hash, j, k, accepts))
  {
  }

  /** `SequenceStopsAt` for a loop run from the start, naming the step that
      stopped it. */
  lemma StopsAt(step: nat -> Step, count: nat, r: Step) returns (j: nat)
    requires StepsAllocateOnce(step) && r == Sequence(step, 0, count) && r.outcome != Done
    ensures j == Count(r.effects, KAlloc) - 1 && j < count && EndsAs(r, step(j))
  {
    SequenceStopsAt(step, 0, count);
    j := Count(r.effects, KAlloc) - 1;
  }

  /** What `reconcileScaling` leaves behind: its step, the workload as held
      in memory afterwards, and the pod list as held in memory afterwards
      (sorted by creation time when it scaled down). */
  datatype Scaled = Scaled(step: Step, workload: Workload, pods: seq<Pod>)

  /** `reconcileScaling`: roll outdated pods, record the replica count,
      then scale up or down towards `Spec.Replicas`. */
  function ReconcileScaling(w: Workload, pods: seq<Pod>, hash: string,
                            k: Collaborators, accepts: Effect -> bool): (r: Scaled)
    ensures multiset(r.pods) == multiset(pods)
    ensures r.workload == w || r.workload == WithReplicas(w, |pods|)
  {
    var stale := Outdated(pods, hash);
    if |stale| > 0 then
      var d := ScaleDown(stale, accepts);
      Scaled(Step(d.effects, if d.outcome == Done then Requeue else d.outcome), w, pods)
    else
      var w1 := WithReplicas(w, |pods|);
      if w.status.replicas == |pods| then ScaleTowards(w1, pods, hash, k, accepts)
      else
        var write := WriteStatus(w1.status);
        if !accepts(write) then Scaled(Step([write], Error(StatusUpdateFailed)), w1, pods)
        else
          var t := ScaleTowards(w1, pods, hash, k, accepts);
          Scaled(Prepend([write], t.step), t.workload, t.pods)
  }

  /** `w` with `n` recorded as `Status.Replicas`. */
  function WithReplicas(w: Workload, n: int): Workload
  {
    w.(status := w.status.(replicas := n))
  }

  /** The second half of `reconcileScaling`: launch the missing workers, or
      delete the oldest surplus ones. */
  function ScaleTowards(w: Workload, pods: seq<Pod>, hash: string,
                        k: Collaborators, accepts: Effect -> bool): (r: Scaled)
    ensures multiset(r.pods) == multiset(pods) && r.workload == w
  {
    var desired := DesiredReplicas(w.spec);
    var current := |pods|;
    if current < desired then
      Scaled(ScaleUp(w, hash, desired - current, k, accepts), w, pods)
    else if current > desired then
      var sorted := CreationOrder(pods, k);
      var n := current - desired;
      if n > |sorted| then Scaled(Step([], Panic(SliceOutOfRange)), w, sorted)
      else Scaled(ScaleDown(sorted[..n], accepts), w, sorted)
    else Scaled(Step([], Done), w, pods)
  }

  /** Rolling update: when some pod carries a stale template hash, the
      cycle deletes exactly the stale pods, in list order, stopping at the
      first refused deletion, and then asks to be requeued; it allocates,
      creates and writes nothing else, and leaves the workload and the pod
      list as they were. */
  lemma ScalingRolls(w: Workload, pods: seq<Pod>, hash: string, k: Collaborators, accepts: Effect -> bool)
    requires !AllCurrent(pods, hash)
    ensures var s := ReconcileScaling(w, pods, hash, k, accepts);
      var stale := Outdated(pods, hash);
      && s.workload == w && s.pods == pods
      && s.step.effects == Deletions(stale)[..|s.step.effects|]
      && (s.step.outcome == Requeue || s.step.outcome == Error(DeletePodFailed))
      && (s.step.outcome == Requeue <==>
            s.step.effects == Deletions(stale)
            && forall i :: 0 <= i < |stale| ==> accepts(DeletePod(stale[i].name)))
  {
    var stale := Outdated(pods, hash);
    ScaleDownCompletes(stale, accepts);
  }

  lemma {:induction false} CountAll(es: seq<Effect>, k: Kind)
    requires forall i :: 0 <= i < |es| ==> KindOf(es[i]) == k
    ensures Count(es, k) == |es|
  {
    if |es| > 0 {
      CountAll(es[1..], k);
    }
  }

  /** Scaling down only deletes pods, one per effect. */
  lemma ScaleDownCounts(pods: seq<Pod>, accepts: Effect -> bool)
    ensures var r := ScaleDown(pods, accepts);
      && Count(r.effects, KDelete) == |r.effects|
      && Count(r.effects, KAlloc) == 0 && Count(r.effects, KCreate) == 0
      && Count(r.effects, KWriteStatus) == 0
  {
    var r := ScaleDown(pods, accepts);
    assert forall i :: 0 <= i < |r.effects| ==> r.effects[i] == Deletions(pods)[i];
    CountAll(r.effects, KDelete);
    CountZero(r.effects, KAlloc);
    CountZero(r.effects, KCreate);
    CountZero(r.effects, KWriteStatus);
  }

  /** No pod carries a stale template hash. */
  predicate AllCurrent(pods: seq<Pod>, hash: string)
  {
    forall i :: 0 <= i < |pods| ==> Get(pods[i].labels, TemplateHashLabel) == hash
  }

  /** Below the desired count, the cycle runs the scale-up loop for the
      missing workers: at most that many allocations, no deletions and no
      status writes; when it completes, one worker was created per missing
      replica and no GPU given back. */
  lemma ScaleTowardsUp(w: Workload, pods: seq<Pod>, hash: string, k: Collaborators, accepts: Effect -> bool)
    requires |pods| < DesiredReplicas(w.spec)
    ensures var t := ScaleTowards(w, pods, hash, k, accepts);
      var missing := DesiredReplicas(w.spec) - |pods|;
      && t.workload == w && t.pods == pods
      && Count(t.step.effects, KAlloc) <= missing && Count(t.step.effects, KCreate) <= missing
      && Count(t.step.effects, KDelete) == 0 && Count(t.step.effects, KWriteStatus) == 0
      && (t.step.outcome == Done ==>
            Count(t.step.effects, KCreate) == missing && Count(t.step.effects, KDealloc) == 0)
  {
    ScaleUpCounts(w, hash, DesiredReplicas(w.spec) - |pods|, k, accepts);
  }

  /** Above a non-negative desired count, the cycle deletes the surplus
      pods from the front of the creation-ordered list (see `OldestFirst`),
      which it leaves in place of the listed order: the deletions are a
      prefix of those of its first `surplus` pods, all of them when the
      cycle completes, and nothing is allocated, created or written. */
  lemma ScaleTowardsDown(w: Workload, pods: seq<Pod>, hash: string, k: Collaborators, accepts: Effect -> bool)
    requires 0 <= DesiredReplicas(w.spec) < |pods|
    ensures var t := ScaleTowards(w, pods, hash, k, accepts);
      var surplus := |pods| - DesiredReplicas(w.spec);
      && t.workload == w
      && t.pods == CreationOrder(pods, k)
      && t.step.effects == Deletions(t.pods[..surplus])[..|t.step.effects|]
      && (t.step.outcome == Done || t.step.outcome == Error(DeletePodFailed))
      && (t.step.outcome == Done ==> |t.step.effects| == surplus)
      && Count(t.step.effects, KAlloc) == 0 && Count(t.step.effects, KCreate) == 0
      && Count(t.step.effects, KWriteStatus) == 0
  {
    var sorted := CreationOrder(pods, k);
    var surplus := |pods| - DesiredReplicas(w.spec);
    var d := ScaleDown(sorted[..surplus], accepts);
    assert ScaleTowards(w, pods, hash, k, accepts) == Scaled(d, w, sorted);
    ScaleDownCounts(sorted[..surplus], accepts);
    ScaleDownCompletes(sorted[..surplus], accepts);
  }

  /** Cutting any ordering of the pods by creation time after `n` pods
      splits them into `n` oldest and the rest: together they are the pods
      listed, and no pod in the rest is older than one in the front. Which
      of several pods created at the same instant land in front is not
      determined. */
  lemma OldestFirst(sorted: seq<Pod>, pods: seq<Pod>, n: nat)
    requires SortsByCreation(sorted, pods) && n <= |sorted|
    ensures multiset(sorted[..n]) + multiset(sorted[n..]) == multiset(pods)
    ensures forall i, j :: 0 <= i < n <= j < |sorted| ==> sorted[i].created <= sorted[j].created
  {
    assert sorted == sorted[..n] + sorted[n..];
  }

  /** A negative `Spec.Replicas` makes the surplus exceed the pod list, and
      slicing the sorted list by it panics before any pod is deleted. */
  lemma ScaleTowardsNegative(w: Workload, pods: seq<Pod>, hash: string, k: Collaborators, accepts: Effect -> bool)
    requires DesiredReplicas(w.spec) < 0
    ensures ScaleTowards(w, pods, hash, k, accepts).step == Step([], Panic(SliceOutOfRange))
  {
  }

  /** At the desired count, the cycle issues nothing and carries on. */
  lemma ScaleTowardsSteady(w: Workload, pods: seq<Pod>, hash: string, k: Collaborators, accepts: Effect -> bool)
    requires DesiredReplicas(w.spec) == |pods|
    ensures ScaleTowards(w, pods, hash, k, accepts) == Scaled(Step([], Done), w, pods)
  {
  }

  /** Scaling towards the desired count writes no status and keeps the
      workload as it is. */
  lemma ScaleTowardsWritesNoStatus(w: Workload, pods: seq<Pod>, hash: string, k: Collaborators, accepts: Effect -> bool)
    ensures var t := ScaleTowards(w, pods, hash, k, accepts);
      Count(t.step.effects, KWriteStatus) == 0 && t.workload == w
  {
    var desired := DesiredReplicas(w.spec);
    if |pods| < desired {
      ScaleTowardsUp(w, pods, hash, k, accepts);
    } else if 0 <= desired < |pods| {
      ScaleTowardsDown(w, pods, hash, k, accepts);
    } else if desired < 0 {
      ScaleTowardsNegative(w, pods, hash, k, accepts);
    }
  }

  /** With no stale pods, the cycle records the pod count as
      `Status.Replicas` in memory, and writes the status, as its first
      effect and only status write, exactly when the recorded count
      differed; a refused write ends the cycle with an error. */
  lemma ScalingRecordsReplicas(w: Workload, pods: seq<Pod>, hash: string, k: Collaborators, accepts: Effect -> bool)
    requires AllCurrent(pods, hash)
    ensures ReconcileScaling(w, pods, hash, k, accepts).workload == WithReplicas(w, |pods|)
    ensures Count(ReconcileScaling(w, pods, hash, k, accepts).step.effects, KWriteStatus)
         == if w.status.replicas != |pods| then 1 else 0
    ensures w.status.replicas != |pods| ==>
      ReconcileScaling(w, pods, hash, k, accepts).step.effects[0] == WriteStatus(WithReplicas(w, |pods|).status)
    ensures w.status.replicas != |pods| && !accepts(WriteStatus(WithReplicas(w, |pods|).status)) ==>
      ReconcileScaling(w, pods, hash, k, accepts).step
        == Step([WriteStatus(WithReplicas(w, |pods|).status)], Error(StatusUpdateFailed))
  {
    ScaleTowardsWritesNoStatus(WithReplicas(w, |pods|), pods, hash, k, accepts);
    ScalingAfterRoll(w, pods, hash, k, accepts);
    if w.status.replicas == |pods| {
      ScalingKeepsRecord(w, pods, hash, k, accepts);
    } else {
      ScalingRewritesRecord(w, pods, hash, k, accepts);
    }
  }

  lemma ScalingKeepsRecord(w: Workload, pods: seq<Pod>, hash: string, k: Collaborators, accepts: Effect -> bool)
    requires AllCurrent(pods, hash) && w.status.replicas == |pods|
    ensures Count(ReconcileScaling(w, pods, hash, k, accepts).step.effects, KWriteStatus) == 0
  {
    ScaleTowardsWritesNoStatus(WithReplicas(w, |pods|), pods, hash, k, accepts);
    ScalingAfterRoll(w, pods, hash, k, accepts);
  }

  lemma ScalingRewritesRecord(w: Workload, pods: seq<Pod>, hash: string, k: Collaborators, accepts: Effect -> bool)
    requires AllCurrent(pods, hash) && w.status.replicas != |pods|
    ensures Count(ReconcileScaling(w, pods, hash, k, accepts).step.effects, KWriteStatus) == 1
  {
    var write := WriteStatus(WithReplicas(w, |pods|).status);
    ScalingAfterRoll(w, pods, hash, k, accepts);
    CountSingle(write, KWriteStatus);
    if accepts(write) {
      var t := ScaleTowards(WithReplicas(w, |pods|), pods, hash, k, accepts).step.effects;
      ScaleTowardsWritesNoStatus(WithReplicas(w, |pods|), pods, hash, k, accepts);
      WriteThen(write, t, ReconcileScaling(w, pods, hash, k, accepts).step.effects);
    }
  }

  lemma WriteThen(write: Effect, t: seq<Effect>, e: seq<Effect>)
    requires write.WriteStatus? && Count(t, KWriteStatus) == 0 && e == [write] + t
    ensures Count(e, KWriteStatus) == 1
  {
    CountSingle(write, KWriteStatus);
    CountAppend([write], t, KWriteStatus);
  }

  /** With no pod left to roll, `reconcileScaling` records the pod count
      and then scales. */
  lemma ScalingAfterRoll(w: Workload, pods: seq<Pod>, hash: string, k: Collaborators, accepts: Effect -> bool)
    requires AllCurrent(pods, hash)
    ensures ReconcileScaling(w, pods, hash, k, accepts)
         == if w.status.replicas == |pods| then ScaleTowards(WithReplicas(w, |pods|), pods, hash, k, accepts)
            else if !accepts(WriteStatus(WithReplicas(w, |pods|).status))
            then Scaled(Step([WriteStatus(WithReplicas(w, |pods|).status)], Error(StatusUpdateFailed)),
                        WithReplicas(w, |pods|), pods)
            else Scaled(Prepend([WriteStatus(WithReplicas(w, |pods|).status)],
                                ScaleTowards(WithReplicas(w, |pods|), pods, hash, k, accepts).step),
                        ScaleTowards(WithReplicas(w, |pods|), pods, hash, k, accepts).workload,
                        ScaleTowards(WithReplicas(w, |pods|), pods, hash, k, accepts).pods)
  {
    assert |Outdated(pods, hash)| == 0;
  }
}

=== FILE: text.dfy ===
/** The two string operations the reconciler applies to the `gpus`
    annotation: Go's `strings.Join` when a worker is launched and
    `strings.Split` when its GPUs are released. */
module Text {

  /** `strings.Join(parts, sep)`: the parts separated by `sep`; no parts
      give the empty string. */
  function Join(parts: seq<string>, sep: char): string
  {
    if |parts| == 0 then ""
    else if |parts| == 1 then parts[0]
    else parts[0] + [sep] + Join(parts[1..], sep)
  }

  /** `strings.Split(s, sep)` for a one-character separator: the maximal
      separator-free pieces of `s`, so the empty string gives one empty
      piece and every separator adds one piece. */
  function Split(s: string, sep: char): (parts: seq<string>)
    ensures |parts| == Occurrences(s, sep) + 1
    ensures forall i :: 0 <= i < |parts| ==> sep !in parts[i]
  {
    if |s| == 0 then [""]
    else
      var rest := Split(s[1..], sep);
      if s[0] == sep then [""] + rest
      else [[s[0]] + rest[0]] + rest[1..]
  }

  /** How many times `c` occurs in `s`. */
  function Occurrences(s: string, c: char): nat
  {
    if |s| == 0 then 0
    else (if s[0] == c then 1 else 0) + Occurrences(s[1..], c)
  }

  /** No part contains the separator. */
  predicate SeparatorFree(parts: seq<string>, sep: char)
  {
    forall i :: 0 <= i < |parts| ==> sep !in parts[i]
  }

  /** A separator-free string splits into itself. */
  lemma {:induction false} SplitWithoutSeparator(w: string, sep: char)
    requires sep !in w
    ensures Split(w, sep) == [w]
    decreases |w|
  {
    if |w| > 0 {
      SplitWithoutSeparator(w[1..], sep);
      assert [w[0]] + w[1..] == w;
    }
  }

  /** Splitting at the first separator peels off the piece before it. */
  lemma {:induction false} SplitFirstPiece(w: string, sep: char, t: string)
    requires sep !in w
    ensures Split(w + [sep] + t, sep) == [w] + Split(t, sep)
    decreases |w|
  {
    var s := w + [sep] + t;
    if |w| == 0 {
      assert s == [sep] + t;
      assert s[1..] == t;
    } else {
      assert s[1..] == w[1..] + [sep] + t;
      SplitFirstPiece(w[1..], sep, t);
      assert [w[0]] + w[1..] == w;
    }
  }

  /** Split undoes Join: a non-empty list of separator-free names survives
      being joined and split again. (The empty list does not: it joins to
      "" and "" splits to one empty piece.) */
  lemma {:induction false} SplitJoin(parts: seq<string>, sep: char)
    requires |parts| >= 1
    requires SeparatorFree(parts, sep)
    ensures Split(Join(parts, sep), sep) == parts
    decreases |parts|
  {
    if |parts| == 1 {
      SplitWithoutSeparator(parts[0], sep);
    } else {
      SplitJoin(parts[1..], sep);
      SplitFirstPiece(parts[0], sep, Join(parts[1..], sep));
      assert [parts[0]] + parts[1..] == parts;
    }
  }

  /** Join undoes Split, for every string. */
  lemma {:induction false} JoinSplit(s: string, sep: char)
    ensures Join(Split(s, sep), sep) == s
    decreases |s|
  {
    if |s| > 0 {
      var rest := Split(s[1..], sep);
      JoinSplit(s[1..], sep);
      if s[0] == sep {
        assert ([""] + rest)[1..] == rest;
      } else {
        var parts := [[s[0]] + rest[0]] + rest[1..];
        if |rest| == 1 {
          assert Join(parts, sep) == [s[0]] + rest[0];
        } else {
          assert parts[1..] == rest[1..];
          assert Join(rest, sep) == rest[0] + [sep] + Join(rest[1..], sep);
        }
      }
    }
  }

}

=== FILE: types.dfy ===
/** The data the workload reconciler reads and writes: the workload record,
    its worker pods, the GPUs handed out by the allocator, the side effects a
    reconcile cycle issues, and the collaborators whose code is not part of
    this model (the cluster API, allocator, port allocator and worker
    generator), given as values and uninterpreted functions. */
module Types {
  import opened Wrappers

  // Label, annotation and finalizer keys. The constants package that
  // defines them is not part of this model; these stand-ins keep the names
  // of the stable vocabulary, and no property depends on their spelling
  // beyond their being distinct.
  const WorkloadLabel: string := "workload"
  const TemplateHashLabel: string := "podTemplateHash"
  const GpusAnnotation: string := "gpus"
  const PortAnnotation: string := "port"
  const GpuReleasedAnnotation: string := "gpu-released"
  const HostnameLabel: string := "kubernetes.io/hostname"
  const Finalizer: string := "tensor-fusion.ai/finalizer"
  const ReadyConditionType: string := "Ready"
  const ScheduleGpuFailedEvent: string := "ScheduleGPUFailed"
  const WorkerFailedEvent: string := "WorkerFailed"

  /** A Go map read: a missing key reads as the empty string. */
  function Get(m: map<string, string>, key: string): string
  {
    if key in m then m[key] else ""
  }

  /** Per-worker compute request (TFlops and VRAM, as opaque quantities). */
  datatype Resource = Resource(tflops: int, vram: int)
  datatype Resources = Resources(requests: Resource, limits: Resource)

  datatype NameNs = NameNs(namespace: string, name: string)

  datatype WorkloadSpec = WorkloadSpec(
    poolName: string,
    replicas: Option<int>,          // int32 in the source; nil allowed
    resources: Resources,
    gpuCount: int,
    gpuModel: string,
    nodeAffinity: Option<string>)   // opaque placement constraint

  /** The phase stored in the status; `PhaseUnset` is the empty string a
      fresh workload starts with. */
  datatype WorkloadPhase = PhaseUnset | PhasePending | PhaseRunning | PhaseFailed

  datatype ConditionStatus = ConditionTrue | ConditionFalse | ConditionUnknown

  /** A status condition; `lastTransition` is an abstract clock reading. */
  datatype Condition = Condition(
    kind: string,
    status: ConditionStatus,
    reason: string,
    message: string,
    lastTransition: int)

  datatype WorkerPhase = WorkerPending | WorkerRunning | WorkerFailed

  datatype WorkerStatus = WorkerStatus(
    phase: WorkerPhase,
    name: string,
    ip: string,
    port: int,
    nodeSelector: map<string, string>,
    resourceVersion: string)

  datatype WorkloadStatus = WorkloadStatus(
    replicas: int,
    readyReplicas: int,
    phase: WorkloadPhase,
    conditions: seq<Condition>,
    podTemplateHash: string,
    workerStatuses: seq<WorkerStatus>)

  /** The allocator's key for a workload's GPU claims. */
  function OwnerOf(w: Workload): NameNs
  {
    NameNs(w.namespace, w.name)
  }

  datatype Workload = Workload(
    name: string,
    namespace: string,
    terminating: bool,              // deletion timestamp set
    finalizers: seq<string>,
    spec: WorkloadSpec,
    status: WorkloadStatus)

  datatype PodPhase = PodPending | PodRunning | PodSucceeded | PodFailed | PodUnknown

  /** A worker pod as listed. `annotations` is `None` for a nil map, which
      reads as empty but cannot be written to. */
  datatype Pod = Pod(
    name: string,
    labels: map<string, string>,
    annotations: Option<map<string, string>>,
    finalizers: seq<string>,
    terminating: bool,              // deletion timestamp set
    created: int,                   // creation timestamp
    phase: PodPhase,
    ready: bool,                    // the Ready condition is True
    ip: string,
    nodeName: string,
    nodeSelector: map<string, string>,
    resourceVersion: string)

  /** A pod without a deletion timestamp. */
  predicate Live(p: Pod)
  {
    !p.terminating
  }

  /** A pod annotation read with Go's "comma ok" form. */
  function Annotation(p: Pod, key: string): Option<string>
  {
    if p.annotations.Some? && key in p.annotations.value
    then Some(p.annotations.value[key]) else None
  }

  /** A GPU as handed out by the allocator. */
  datatype Gpu = Gpu(
    namespace: string,
    name: string,
    labels: Option<map<string, string>>,
    nodeSelector: map<string, string>)

  datatype AllocRequest = AllocRequest(
    pool: string,
    owner: NameNs,
    request: Resource,
    count: int,
    model: string,
    affinity: Option<string>)

  /** The inputs of the worker generator's `GenerateWorkerPod`. */
  datatype GenerateArgs = GenerateArgs(
    gpus: seq<Gpu>,
    name: string,
    namespace: string,
    port: int,
    requests: Resource,
    limits: Resource,
    hash: string)

  /** What `GenerateWorkerPod` returns: the rendered pod and its hash. */
  datatype Generated = Generated(pod: Pod, hash: string)

  /** The side effects of one reconcile cycle, in the order issued. Cluster
      writes may be refused (see `Cluster.accepts`); calls to the allocator,
      port allocator and event recorder always return. */
  datatype Effect =
    | DeleteAllPods(namespace: string, workloadName: string)   // DeleteAllOf by label
    | UpdateWorkload(workload: Workload)
    | UpdatePod(pod: Pod)
    | DeletePod(name: string)
    | CreatePod(pod: Pod)
    | WriteStatus(status: WorkloadStatus)
    | ReleaseHostPort(node: string, podName: string, port: int)
    | AssignHostPort(node: string)
    | Alloc(allocation: AllocRequest)
    | Dealloc(owner: NameNs, request: Resource, gpus: seq<NameNs>)
    | Warning(reason: string)

  /** Why a cycle returned an error. */
  datatype Failure =
    | ReadWorkloadFailed
    | ListPodsFailed
    | WorkloadFinalizerFailed(cause: Failure)
    | DeleteAllPodsFailed
    | FinalizerUpdateFailed
    | MarkerUpdateFailed
    | PoolMissing(pool: string)
    | TemplateHashFailed
    | StatusUpdateFailed
    | DeletePodFailed
    | ScaleUpFailed(launch: LaunchError)

  /** Why `tryStartWorker` failed. */
  datatype LaunchError = NoGpus | HostPortFailed | GenerateFailed | CreateFailed

  /** Where the code as written dereferences nil or slices out of range. */
  datatype Hazard =
    | NilAnnotations      // write into a nil annotation map
    | NilReplicas         // `*Spec.Replicas` with Replicas nil
    | SliceOutOfRange     // `Items[:n]` with n beyond the list

  /** What a cycle returns to the controller runtime. Inside the cycle,
      `Done` from a stage means "carry on", as a zero `ctrl.Result` with no
      error does in the source. */
  datatype Outcome =
    | Done
    | Requeue
    | RequeueAfter            // after the fixed pending-requeue delay
    | Error(failure: Failure)
    | Panic(hazard: Hazard)

  datatype Step = Step(effects: seq<Effect>, outcome: Outcome)

  /** `s` with `pre` issued before it. */
  function Prepend(pre: seq<Effect>, s: Step): (r: Step)
    ensures r.outcome == s.outcome && |r.effects| == |pre| + |s.effects|
  {
    Step(pre + s.effects, s.outcome)
  }

  /** The result of reading the workload by key. */
  datatype Lookup = Found(workload: Workload) | NotFound | ReadFailed

  /** The cluster as seen by one cycle. */
  datatype Cluster = Cluster(
    read: Lookup,                   // the workload, read by key
    pods: Option<seq<Pod>>,         // None: the list call failed
    poolFound: bool,
    accepts: Effect -> bool)        // whether the API server accepts a write

  /** The collaborators whose code is not part of the model. */
  datatype Collaborators = Collaborators(
    templateHash: Option<string>,                // PodTemplateHash(spec)
    alloc: nat -> Option<seq<Gpu>>,              // answer to the i-th Alloc of the cycle
    assignPort: (nat, string) -> Option<int>,    // AssignHostPort(node) in scale-up iteration i
    generate: GenerateArgs -> Option<Generated>, // GenerateWorkerPod
    workerPort: Pod -> Option<int>,              // WorkerPort(pod)
    marker: string -> string,                    // fresh token per pod name
    now: int,                                    // metav1.Now()
    arrange: seq<Pod> -> seq<Pod>,               // the order sort.Slice leaves pods in
    stopAfterAdopt: bool,                        // HandleFinalizer's answer after adding the finalizer
    podVersion: Pod -> string)                   // resourceVersion the API server gives the pod an accepted update sent

  /** Effect kinds, for counting. */
  datatype Kind =
    | KDeleteAll | KUpdateWorkload | KUpdatePod | KDelete | KCreate | KWriteStatus
    | KReleasePort | KAssignPort | KAlloc | KDealloc | KWarning

  function KindOf(e: Effect): Kind
  {
    match e
    case DeleteAllPods(_, _) => KDeleteAll
    case UpdateWorkload(_) => KUpdateWorkload
    case UpdatePod(_) => KUpdatePod
    case DeletePod(_) => KDelete
    case CreatePod(_) => KCreate
    case WriteStatus(_) => KWriteStatus
    case ReleaseHostPort(_, _, _) => KReleasePort
    case AssignHostPort(_) => KAssignPort
    case Alloc(_) => KAlloc
    case Dealloc(_, _, _) => KDealloc
    case Warning(_) => KWarning
  }

  /** How many effects of kind `k` are in `es`. */
  function Count(es: seq<Effect>, k: Kind): nat
  {
    if |es| == 0 then 0
    else (if KindOf(es[0]) == k then 1 else 0) + Count(es[1..], k)
  }

  lemma {:induction false} CountAppend(a: seq<Effect>, b: seq<Effect>, k: Kind)
    ensures Count(a + b, k) == Count(a, k) + Count(b, k)
    decreases |a|
  {
    if |a| == 0 {
      assert a + b == b;
    } else {
      assert (a + b)[0] == a[0];
      assert (a + b)[1..] == a[1..] + b;
      CountAppend(a[1..], b, k);
    }
  }

  lemma CountSingle(e: Effect, k: Kind)
    ensures Count([e], k) == if KindOf(e) == k then 1 else 0
  {
    assert [e][1..] == [];
  }

  lemma CountSnoc(es: seq<Effect>, e: Effect, k: Kind)
    ensures Count(es + [e], k) == Count(es, k) + if KindOf(e) == k then 1 else 0
  {
    CountAppend(es, [e], k);
    CountSingle(e, k);
  }

  /** No effect of kind `k` occurs exactly when the count is zero. */
  lemma {:induction false} CountZero(es: seq<Effect>, k: Kind)
    ensures Count(es, k) == 0 <==> forall i :: 0 <= i < |es| ==> KindOf(es[i]) != k
    decreases |es|
  {
    if |es| > 0 {
      CountZero(es[1..], k);
      assert forall i :: 1 <= i < |es| ==> es[i] == es[1..][i - 1];
    }
  }

  /** Effects that move the cluster towards the declared replicas or
      publish status: what a cycle must not issue once it has decided to
      wait for deletions. */
  predicate Converging(e: Effect)
  {
    e.Alloc? || e.AssignHostPort? || e.CreatePod? || e.DeletePod? || e.WriteStatus?
  }

  predicate NoneConverging(es: seq<Effect>)
  {
    forall i :: 0 <= i < |es| ==> !Converging(es[i])
  }
}

=== FILE: wrappers.dfy ===
/** Optional values: the model's stand-in for Go's nil pointers, nil maps and
    "comma ok" lookups. */
module Wrappers {

  datatype Option<+T> = None | Some(value: T) {

    /** The value, or `default` when there is none (Go's "nil means default"). */
    function GetOr(default: T): T
    {
      match this
      case Some(v) => v
      case None => default
    }
  }
}
